=== FILE: README.md ===
# Weenie Bot bookkeeping, modelled in Dafny

This project models the state behind a Discord bot (`bot.py`). That state is
changed by chat commands and by a task that runs once a second. The model covers:

- **Timer registry** (`timers.dfy`, module `Timers`). `timersKey` maps a member
  to `[minutes, start, ctx]`.
  - `/giveme` sets or overwrites an entry.
  - `/timer` and `/alltimers` report the minutes left.
  - The task's two-pass sweep first collects the expired members, then pops
    each one and notifies it.
- **Poll dialogue** (`polls.dfy`, module `Polls`). The globals `pollStep`,
  `pollCreator`, `pollDict`, `charResp`, `emojiResponse` and `fullResponse`
  change under `/poll` and `on_message`: question, answers split on commas,
  announcement, reactions.
- **Playlist bookkeeping** (`playlist.dfy`, module `Playlist`):
  - the find-or-create scan for the playlist named "Weenie Bot Playlist";
  - the 360-minute rotation and the 3000-second token refresh;
  - `/playlisttime` and `/restartPlaylistEverything`.
- **Shot counter and `/nug`** (`shots.dfy`, modules `Shots` and `Nugs`).
  `people` counts shots per lower-cased name; `/nug` repeats an emoji while the
  message stays under 2000 characters.
- **The once-a-second task** `fun` (`tick.dfy`, module `Tick`): sweep, then
  refresh, then rotation.

Supporting modules:

- `text.dfy` models the Python built-ins the handlers use: `str.split`, `join`,
  `replace`, `lower`, `strip`, `int()` on strings and quotients, and `str()` on
  integers.
- `dict.dfy` models a Python `dict` as a map plus its insertion order, which is
  the order `for` loops visit it.
- `chat.dfy` models members, reply contexts and posts.

Objects whose fields the source updates in place are classes:
`TimerRegistry`, `PollMachine`, `PlaylistKeeper` and `ShotCounter`. Each
method is proved against a function of the old state (`Swept`, `StartPoll`,
`Receive`, `AddShot`, `LastReserved`, ...), and the lemmas are proved about
those functions.

Time is a whole number of seconds, passed in as `now`. The source mixes
units. Timer starts and `playListOnTime` are kept in minutes
(`time.time()/60`), and the tests on them are multiplied through by 60 here.
`refreshTimer` is kept in seconds (bot.py:68, 317), and its test is the
source's own (bot.py:314):

- a timer has expired when `now - start >= 60*minutes`;
- the playlist rotates when `onTime + 21600 - now < 0`;
- the token is refreshed when `now - refreshTimer > 3000`;
- minutes left are truncated toward zero, as `int()` does.

A member keys a Python dict by its id alone, so `timersKey` is keyed by member
id. Each entry keeps the member object that first keyed it, because `update`
on an equal key keeps the key already stored.

The rotation test is strict (`< 0`, bot.py:322): the playlist rotates only
after the 360 minutes have passed. `/playlisttime` likewise reports `int(...)` of the
difference, truncated toward zero, not the unrounded value.

## Model

| member | source | states |
|---|---|---|
| PyText.JoinSeparators | bot.py:538 | `join`, the inverse against which `split(',')` is stated, puts exactly one separator between each two fragments free of it |
| PyText.Replace | bot.py:125 | `replace` with an empty replacement never lengthens the text |
| PyText.ReplaceDeletes | bot.py:176-180 | `replace` with an empty replacement only deletes characters |
| PyText.Lower | bot.py:177 | `lower()` keeps the length, leaves no upper-case letter and keeps every other character in place |
| PyText.LowerTwice | bot.py:230 | lower-casing twice is lower-casing once |
| PyText.Strip | bot.py:126 | `strip()` yields a piece of the text that neither starts nor ends with whitespace (Python's `str.isspace()` set, ASCII and Unicode spaces), and leaves text without surrounding whitespace unchanged; `/nug` discards this result, so it serves only as the contrast to the whitespace `int()` skips |
| PyText.ParseIntNeedsDigit | bot.py:130 | `int()` accepts a text only if it holds a digit |
| PyText.IntToString | bot.py:235 | `str(n)` is the digits of n's magnitude, with a minus sign exactly when n is negative |
| PyText.Split | bot.py:538 | `split(',')` yields one fragment more than there are commas, and no fragment contains a comma |
| PyText.JoinSplit | bot.py:538 | splitting loses nothing: joining the fragments with the separator gives the text back |
| PyText.SplitJoin | bot.py:538 | comma-free fragments joined with commas split back into the same fragments |
| PyText.NatToString | bot.py:235 | `str(n)` is a non-empty string of digits whose value is n |
| PyText.ParseIntOfString | bot.py:232-233 | `int()` reads back what `str()` wrote, also after the leading whitespace it skips (space, tab, line feed, vertical tab, form feed, carriage return, and the non-ASCII spaces) |
| PyText.ParseIntRejects | bot.py:130 | `int()` refuses a number followed by something other than digits and the whitespace it skips |
| PyText.SeparatorsAreNotIntSpace | bot.py:126-130 | the separators 28-31 are whitespace to `strip()` but not to `int()`, which refuses a number next to one; a no-break space is whitespace to both |
| PyText.TruncDiv | bot.py:253 | `int()` of a quotient truncates toward zero, for both signs |
| PyText.ReplaceAbsent | bot.py:179-180 | `replace` leaves text without the pattern's first character unchanged |
| PyText.ReplaceLeading | bot.py:179-180 | a leading occurrence is replaced and the scan resumes after it |
| PyText.LowerAppend | bot.py:177 | lower-casing distributes over concatenation |
| PyDict.Empty | bot.py:14-15 | `{}` is a valid dict with no keys |
| PyDict.Put | bot.py:240 | `update({k: v})`: k maps to v, every other key keeps its value, a new key goes last and an existing key keeps its place |
| PyDict.Pop | bot.py:307 | `pop(k)` removes k only, keeping the order of the others |
| PyDict.RemoveAll | bot.py:303-307 | popping a set of keys removes exactly those keys and keeps the rest in order |
| PyDict.PopAfterRemoveAll | bot.py:304-307 | popping keys one at a time equals removing them all at once |
| PyDict.EmptyHasNoKeys | bot.py:270-277 | a dict equals `{}` exactly when a `for` loop over it visits nothing |
| Timers.TimeLeft | bot.py:253 | minutes left are never negative before expiry and never positive after it |
| Timers.TimeLeftTruncates | bot.py:253 | minutes left are the seconds left divided by 60, rounded toward zero |
| Timers.GiveMeReadsMinutes | bot.py:229-233 | "/giveme m" reads exactly m minutes through both `replace`/`int()` passes |
| Timers.GiveMeIgnoresCase | bot.py:229-233 | the handler lower-cases the message before parsing, so the minutes it reads do not depend on the case of the text (the command name itself is matched case-sensitively before the handler runs) |
| Timers.GiveMeSeparatorRefused | bot.py:232 | "/giveme 5" followed by the separator 28 is refused by `int()`, so no timer is set |
| Timers.TimerReply | bot.py:251-257 | `/timer` finds the author's entry by id and reports its minutes left under the author's name, or "You do not have a timer" when there is no entry |
| Timers.GiveMeUpdate | bot.py:240 | `update({author: ...})` sets the author's entry, keeps the key object already stored for that id, leaves other entries alone, and keeps every entry keyed by its member's id |
| Timers.TimerAfterGiveMe | bot.py:240-255 | a `/timer` within the first minute after `/giveme m` reports m - 1 for a positive m and m otherwise, and the replies to members with other ids are unchanged |
| Timers.RenameKeepsTimer | bot.py:240-255 | a member who renames still finds their timer at any later time, reported under the new name, and a second `/giveme` overwrites the same entry instead of adding one |
| Timers.TimerLine | bot.py:273-274 | each `/alltimers` line is what `/timer` tells the member whose object keys the entry |
| Timers.ExpiredKeys | bot.py:292-301 | the first pass lists exactly the expired members, each once |
| Timers.Swept | bot.py:290-310 | after the sweep exactly the unexpired entries remain, unchanged and in order, and none left is expired |
| Timers.ExpiryNotices | bot.py:303-310 | every notice the sweep sends is for a member whose timer has run out |
| Timers.OneNoticePerExpiry | bot.py:303-310 | one notice per removed entry, to that entry's stored context, never two for one member |
| Timers.ExpiresExactlyOnTime | bot.py:295-299 | a timer survives every sweep before start + minutes and is removed with one notice by the first sweep at or after it |
| Timers.PopNext | bot.py:304-310 | one second-pass step pops one more collected key and adds its notice |
| Timers.TimerRegistry.constructor | bot.py:15 | the registry starts empty |
| Timers.TimerRegistry.GiveMe | bot.py:225-243 | replies with the minutes and applies `GiveMeUpdate`; unreadable minutes change nothing |
| Timers.TimerRegistry.Timer | bot.py:246-257 | `/timer` replies as `TimerReply` |
| Timers.TimerRegistry.AllTimers | bot.py:267-277 | one line per timer in insertion order, or "There are no timers" when there are none |
| Timers.TimerRegistry.CollectExpired | bot.py:290-301 | the first-pass loop collects `ExpiredKeys`: distinct, exactly the due members |
| Timers.TimerRegistry.Sweep | bot.py:290-310 | the two-pass loop leaves `Swept(old)` and sends `ExpiryNotices(old)` |
| Polls.StartPoll | bot.py:436-451 | `/poll` is refused without any change during a poll; otherwise the author becomes the creator with a fresh record ending an hour later, and step 1 begins |
| Polls.Receive | bot.py:512-570 | only the creator's messages during steps 1-2 change anything; the creator's step-1 message becomes the question and moves to step 2, and nothing else changes; the step-2 message is appended to the record, set as `fullResponse` and announced with one label per comma-separated answer, appends that many codes to `emojiResponse` (which is only ever extended) and returns to step 0 unless there are more than 26 answers; the creator is never cleared; messages reach command dispatch unless the reactions raise |
| Polls.CodesExtend | bot.py:545-548 | `emojiResponse` stays the list a, b, c, ... as `charResp` advances |
| Polls.Announcement | bot.py:541-550 | the poll message always opens with the question in bold |
| Polls.AnnouncementSnoc | bot.py:541-550 | each answer appends one line labelled with its position's letter |
| Polls.DialogueCompletes | bot.py:436-570 | `/poll`, question, then at most 26 answers: the answers are announced and reacted to, the dialogue returns to step 0, `charResp` advances, the creator stays set, and a new poll can start |
| Polls.TooManyAnswersWedge | bot.py:532-562 | with more than 26 answers the step stays 2, `/poll` is refused from then on, and the creator's next message re-posts the same announcement |
| Polls.SplitThree | bot.py:538 | "x,y,z" splits into x, y and z, spaces kept |
| Polls.AnnouncementOfThree | bot.py:541-550 | the announcement of three answers is the bold question followed by lines labelled a, b, c in input order |
| Polls.PollMachine.constructor | bot.py:17-22 | the poll globals start at step 0 with `charResp` 'a' and an empty `emojiResponse` |
| Polls.PollMachine.Begin | bot.py:436-451 | `/poll` acts as `StartPoll` and keeps the invariant |
| Polls.PollMachine.OnMessage | bot.py:512-570 | `on_message` acts as `Receive` and keeps the invariant |
| Polls.PollMachine.Announce | bot.py:532-562 | the second step builds the announcement, advances `charResp`, appends to `emojiResponse` and resets the step unless the reactions raise |
| Polls.PollMachine.Label | bot.py:541-550 | the formatting loop yields `Announcement(question, fragments)` and appends one code per fragment |
| Polls.PollMachine.React | bot.py:555-560 | the reaction loop adds `emojiLetters[0..n)` and raises exactly when n > 26 |
| Playlist.Names | bot.py:88-91 | `playlistNames` lists the listing's names in order |
| Playlist.LastReserved | bot.py:90-95 | the scan adopts the id of the last item named "Weenie Bot Playlist", or none if no item has that name |
| Playlist.ReservedListed | bot.py:97-104 | the scan creates a playlist exactly when no listed name is reserved |
| Playlist.LaterItemsIgnored | bot.py:90-95 | items listed after the last reserved one do not change the adopted id |
| Playlist.LastListedWins | bot.py:93-95 | a reserved item listed last is adopted, whatever came before it |
| Playlist.ThresholdsAreStrict | bot.py:314-322 | refresh and rotation fire strictly after 3000 s and 360 min, and stay due later |
| Playlist.MinutesLeft | bot.py:356-357 | `/playlisttime`'s minutes are the seconds left divided by 60 and truncated toward zero (rounded down before the deadline, up after it), never negative before rotation is due, at most 360 once started |
| Playlist.PlaylistTimeReply | bot.py:356-358 | within the first minute after a rotation the reply reports 359 minutes (360 only at the instant of the rotation) |
| Playlist.ZeroMinutesWhileDue | bot.py:321-357 | half a minute past the deadline the rotation is due while `/playlisttime` still says 0 |
| Playlist.PlaylistKeeper.constructor | bot.py:25-26 | start-up state: no playlist, on-time 0, the token fetched at load time |
| Playlist.PlaylistKeeper.Adopt | bot.py:88-105 | the scan loop sets `playList` to the last reserved id, or creates one exactly when none is listed |
| Playlist.PlaylistKeeper.OnReady | bot.py:79-107 | `on_ready` lists, adopts or creates, and starts the clock |
| Playlist.PlaylistKeeper.RefreshIfDue | bot.py:313-318 | the token is replaced and its timer reset exactly when refresh is due, and afterwards it is not due |
| Playlist.PlaylistKeeper.Renew | bot.py:323-349 | remove the current playlist, then list, then create only if needed, and restart the clock |
| Playlist.PlaylistKeeper.RotateIfDue | bot.py:320-349 | renews exactly when rotation is due and otherwise changes nothing; afterwards rotation is not due |
| Playlist.PlaylistKeeper.Restart | bot.py:362-399 | `/restartPlaylistEverything` renews unconditionally, leaving 360 minutes, and replies "Playlist Restarted" |
| Playlist.PlaylistKeeper.PlaylistTime | bot.py:352-359 | `/playlisttime` replies with `MinutesLeft` |
| Shots.ShotNameClean | bot.py:176-180 | the counted name has no upper-case letter and no character the message lacked |
| Shots.ShotNameOf | bot.py:176-180 | `/shot Name` counts the lower-cased name |
| Shots.BareShotIsEmptyName | bot.py:176-186 | a bare `/shot` counts the empty name |
| Shots.AddShot | bot.py:187-196 | a shot increments the name's count or starts it at 1; other counts and the order of names are unchanged |
| Shots.TallyCounts | bot.py:164-196 | after `/clearShot`, each count is the number of `/shot`s naming it, and exactly the named names are listed |
| Shots.ShotCounter.constructor | bot.py:14 | `people` starts empty |
| Shots.ShotCounter.Shot | bot.py:173-200 | `/shot` acts as `AddShot` and replies with the new count, after "Please give a name" for an empty name |
| Shots.ShotCounter.ClearShot | bot.py:165-169 | `/clearShot` replies "Clearing shots" and empties `people` |
| Shots.ShotCounter.HowMany | bot.py:204-209 | `/howmany` sends one line per name in first-counted order |
| Nugs.NugReply | bot.py:122-135 | whatever `/nug` sends fits in one message; nothing is sent exactly when the text after "/nug" is not empty and `int()` or the repetition raises |
| Nugs.Repeat | bot.py:131 | `s * n` has n copies' length and is empty for n <= 0 |
| Nugs.NugArgument | bot.py:124-130 | the text after "/nug" in "/nug n" reads back as n |
| Nugs.NugLength | bot.py:131-135 | 71 nuggets fit under 2000 characters and 72 do not |
| Nugs.NugSeparatorRefused | bot.py:125-130 | "/nug 5" followed by the separator 28 is refused by `int()`, so nothing is sent |
| Nugs.NugBound | bot.py:122-135 | `/nug n` sends n nuggets when n <= 71, an empty message for n <= 0, "That's too many nugs" above 71, and nothing where `str * int` raises `OverflowError` (n below -2^63, or 28n above 2^63 - 1) |
| Nugs.BareNug | bot.py:125-128 | a bare `/nug` sends one nugget |
| Tick.Fun | bot.py:281-349 | one tick sweeps the timers, refreshes the token and resets its timer if due, then rotates the playlist if due with the possibly new token, leaving neither due |

## Left out

- Discord transport is not modelled: sending, deleting, reactions, intents, `bot.process_commands` dispatch and the event loop. Replies are returned as text, posts to stored contexts as `Post` values, and dispatch as the `forwarded` flag.
- Discord's refusals of a call are not modelled; every send, delete and reaction is taken to succeed.
  - An empty message cannot be sent; `/nug 0` returns the empty text it would try to send.
  - In `on_message` (bot.py:512-570), an announcement over 2000 characters, deleting a message in a direct conversation, or deleting without the Manage Messages permission raises. The poll then stays at step 1 or 2 for good, like the wedge of more than 26 answers.
  - Polls.DialogueCompletes therefore holds only when Discord accepts every call.
- The Spotify calls (`spotifyFunction` is not part of this model) are abstract. Their results are inputs: the listing, the id of a created playlist and a new token. The requests a step makes are returned in order as `SpotifyCall` values. Their failures and exceptions are not modelled.
- `/addsong`, `/songs` and `/playlist` are left out. They are almost entirely these Spotify calls or a fixed link.
- `change_game` is left out; it only runs docker processes.
- `/roll`, `/rollforgold` and `/lib` are left out; they depend on random numbers.
- `/restartFun` is left out; it only restarts the task's schedule.
- Floating-point wall-clock time is replaced by whole seconds. Fractional seconds, and any rounding in `time.time()/60`, are not modelled.
- `int()` on strings accepts, around one optional sign and ASCII digits, only the whitespace that CPython's `int()` skips: space, tab, line feed, vertical tab, form feed, carriage return, and the non-ASCII characters for which `str.isspace()` holds. The separators 28-31, which `str.isspace()` and `strip()` accept, are refused. Underscores between digits and non-ASCII digits are not modelled.
- PyText.Strip: the whitespace set is that of Python 3.6 and later; earlier versions also count U+180E as whitespace.
- `int()` on a string of more than 4300 digits raises `ValueError` in recent CPython versions; that limit is not modelled.
- PyText.Lower: `lower()` lower-cases ASCII letters only; the case mapping of other letters is not modelled.
- Nugs.NugBound: a repetition below the `OverflowError` bound may still raise `MemoryError`; that depends on the machine and is not modelled.
- Timers.TimeLeftTruncates: at bot.py:253 and bot.py:273, `int - float` first rounds the minutes to a float. Above about 2^47 minutes that rounding swallows the fraction of a minute that has passed. There the source reports the minutes unchanged, while the model truncates exactly and reports one less.
- Timers.TimeLeft: for minutes of magnitude 2^1024 or more, `int - float` at bot.py:253 and bot.py:273 raises `OverflowError`; the model computes the exact value instead.
- The member object that keys a timer is stored as it was when it first keyed the entry. The discord.py library updates the cached data behind member objects in place, so a name read later could differ. Those updates are not modelled.
- Polls.Receive: requires that one poll has at most 55,199 answers, so that every label stays below the surrogate block. Python's `chr` does not raise there, but Dafny's `char` cannot hold a surrogate. It also requires `charResp` to stay within `chr`'s range, 0x10FFFF. That bounds all answers of all polls together at about 1.1 million; past it `chr` would raise `ValueError`.
- Polls.PollMachine.OnMessage: carries the same requirement as `Receive`.
- Polls.PollMachine.Announce: carries the same requirement as `Receive`.
- `emojiResponse` holds the code point of each marker letter rather than the marker text. The text is rebuilt by `MarkerText`.
- The string operations at bot.py:557-558 discard their results and have no effect, so they are not modelled.
- The poll's advisory end time is stored but never checked, as in the source.
- Exceptions in the task are not modelled. In the source, an exception inside `fun` would stop the loop.
- Interleavings of commands with the task are not modelled; each handler and each tick is one atomic step.

=== FILE: chat.dfy ===
/**
 * What the bot sees of the chat service: members, the place a reply goes to,
 * and an outgoing message. Sending is not modelled; handlers return what they
 * would send.
 */
module Chat {
  import opened PyText

  /** A guild member. Members are equal, and so key a dict alike, when their
      ids are equal, whatever their names. `str(member)` is
      "name#discriminator"; `member.mention` is "<@!id>" for a member with a
      nickname and "<@id>" otherwise. Polls are keyed by `str(member)`. */
  datatype Member = Member(id: nat, name: string, discriminator: string, nick: string)
  {
    function Display(): string {
      name + "#" + discriminator
    }

    function Mention(): string {
      (if nick != "" then "<@!" else "<@") + NatToString(id) + ">"
    }
  }

  /** A command context or a channel: where a reply is sent. */
  datatype Sink = Sink(channel: nat)

  /** A message sent to a stored context rather than to the current one. */
  datatype Post = Post(to: Sink, text: string)
}

=== FILE: dict.dfy ===
/**
 * A Python `dict` as a value: a finite map together with the order in which
 * its keys were first inserted, which is the order a `for` loop visits them.
 * Updating an existing key keeps its place; popping a key removes it.
 */
module PyDict {

  predicate Distinct<K(==)>(s: seq<K>) {
    forall i, j :: 0 <= i < j < |s| ==> s[i] != s[j]
  }

  datatype Dict<K(==,!new), V> = Dict(keys: seq<K>, vals: map<K, V>)
  {
    /** Every key is listed exactly once, and only keys are listed. */
    ghost predicate Valid() {
      Distinct(keys) && forall k :: k in vals <==> k in keys
    }
  }

  function Empty<K(==,!new), V>(): (d: Dict<K, V>)
    ensures d.Valid() && d.vals == map[] && d.keys == []
  {
    Dict([], map[])
  }

  /** `d.update({k: v})` (or `d[k] = v`): `k` now maps to `v`, every other key
      keeps its value, a new key goes last and an old key keeps its place. */
  function Put<K(==,!new), V>(d: Dict<K, V>, k: K, v: V): (r: Dict<K, V>)
    requires d.Valid()
    ensures r.Valid()
    ensures r.vals == d.vals[k := v]
    ensures k in d.vals ==> r.keys == d.keys
    ensures k !in d.vals ==> r.keys == d.keys + [k]
  {
    if k in d.vals then Dict(d.keys, d.vals[k := v])
    else Dict(d.keys + [k], d.vals[k := v])
  }

  /** `s` without the elements of `gone`, the others in their original order. */
  function Minus<K(==,!new)>(s: seq<K>, gone: set<K>): (r: seq<K>)
    ensures forall x :: x in r <==> x in s && x !in gone
    ensures Distinct(s) ==> Distinct(r)
  {
    if s == [] then []
    else
      var rest := Minus(s[1..], gone);
      assert forall x :: x in s <==> x == s[0] || x in s[1..];
      assert Distinct(s) ==> s[0] !in s[1..];
      if s[0] in gone then rest else [s[0]] + rest
  }

  lemma {:induction false} MinusTwice<K(!new)>(s: seq<K>, a: set<K>, b: set<K>)
    ensures Minus(Minus(s, a), b) == Minus(s, a + b)
  {
    if s != [] {
      MinusTwice(s[1..], a, b);
      if s[0] !in a {
        assert Minus(s, a) == [s[0]] + Minus(s[1..], a);
        assert (Minus(s, a))[1..] == Minus(s[1..], a);
      }
    }
  }

  /** `d.pop(k)` on a present key: `k` is gone, every other key keeps its value
      and its place. */
  function Pop<K(==,!new), V>(d: Dict<K, V>, k: K): (r: Dict<K, V>)
    requires d.Valid() && k in d.vals
    ensures r.Valid()
    ensures r.vals == d.vals - {k}
    ensures r.keys == Minus(d.keys, {k})
  {
    Dict(Minus(d.keys, {k}), d.vals - {k})
  }

  /** `d` with every key in `gone` popped. */
  function RemoveAll<K(==,!new), V>(d: Dict<K, V>, gone: set<K>): (r: Dict<K, V>)
    requires d.Valid()
    ensures r.Valid()
    ensures r.vals == d.vals - gone
    ensures r.keys == Minus(d.keys, gone)
  {
    Dict(Minus(d.keys, gone), d.vals - gone)
  }

  lemma {:induction false} MinusNothing<K(!new)>(s: seq<K>)
    ensures Minus(s, {}) == s
  {
    if s != [] {
      MinusNothing(s[1..]);
    }
  }

  /** Popping the keys one at a time is popping them all at once. */
  lemma PopAfterRemoveAll<K(!new), V>(d: Dict<K, V>, gone: set<K>, k: K)
    requires d.Valid() && k in d.vals && k !in gone
    ensures k in RemoveAll(d, gone).vals
    ensures Pop(RemoveAll(d, gone), k) == RemoveAll(d, gone + {k})
  {
    MinusTwice(d.keys, gone, {k});
  }

  lemma RemoveNothing<K(!new), V>(d: Dict<K, V>)
    requires d.Valid()
    ensures RemoveAll(d, {}) == d
  {
    MinusNothing(d.keys);
    assert d.vals - {} == d.vals;
  }

  /** A Python dict is empty exactly when it lists no key. */
  lemma EmptyHasNoKeys<K(!new), V>(d: Dict<K, V>)
    requires d.Valid()
    ensures d.vals == map[] <==> d.keys == []
  {
    if d.keys != [] {
      assert d.keys[0] in d.vals;
    }
  }

  /** The elements of a list, as a set. */
  function Elems<K>(s: seq<K>): set<K> {
    set x | x in s
  }

  /** A list of distinct elements has as many elements as the set it lists. */
  lemma {:induction false} DistinctCardinality<K>(s: seq<K>)
    requires Distinct(s)
    ensures |Elems(s)| == |s|
  {
    if s != [] {
      DistinctCardinality(s[1..]);
      assert Elems(s) == {s[0]} + Elems(s[1..]);
      assert s[0] !in s[1..];
    }
  }
}

=== FILE: playlist.dfy ===
/**
 * The bot's Spotify playlist bookkeeping: the globals `playList`,
 * `playListOnTime`, `STOKEN` and `refreshTimer`, the find-or-create scan that
 * `on_ready`, the tick and `/restartPlaylistEverything` each run, the
 * rotation and token-refresh tests, and `/playlisttime`.
 *
 * The Spotify calls themselves are not modelled. What they return (the
 * listing of the user's playlists, the id of a newly created playlist, a
 * fresh access token) is passed in, and the calls a step makes are returned
 * in order as `SpotifyCall` values. Times are whole seconds.
 */
module Playlist {
  import opened Wrappers
  import opened PyText

  /** The name the bot gives its playlist and looks for in the listing. */
  const ReservedName := "Weenie Bot Playlist"

  /** A playlist lives 360 minutes. */
  const Lifetime := 21600

  /** The access token is refreshed once it is more than 50 minutes old. */
  const RefreshPeriod := 3000

  /** One entry of the user's playlist listing: `item['name']`, `item['id']`. */
  datatype Item = Item(name: string, id: string)

  /** The Spotify requests a step makes, in order, with the token they carry. */
  datatype SpotifyCall =
    | RefreshAuthorization
    | RemovePlaylist(token: string, playlist: string)
    | GetUserPlaylists(token: string)
    | CreatePlaylist(token: string)

  /** `playlistNames`: the names of the listing, in order. */
  function Names(items: seq<Item>): (names: seq<string>)
    ensures |names| == |items|
    ensures forall i :: 0 <= i < |items| ==> names[i] == items[i].name
  {
    seq(|items|, i requires 0 <= i < |items| => items[i].name)
  }

  /** The id the scan adopts: that of the LAST item named `ReservedName`, or
      none when no item has that name. */
  function LastReserved(items: seq<Item>): (r: Option<string>)
    ensures r.None? <==> forall i :: 0 <= i < |items| ==> items[i].name != ReservedName
    ensures r.Some? ==> exists i :: 0 <= i < |items| && items[i] == Item(ReservedName, r.value)
                                    && forall j :: i < j < |items| ==> items[j].name != ReservedName
  {
    if items == [] then None
    else if items[|items| - 1].name == ReservedName then Some(items[|items| - 1].id)
    else LastReserved(items[..|items| - 1])
  }

  /** The scan creates a playlist exactly when the listing names none. */
  lemma ReservedListed(items: seq<Item>)
    ensures ReservedName in Names(items) <==> LastReserved(items).Some?
  {
    if ReservedName in Names(items) {
      var i :| 0 <= i < |items| && Names(items)[i] == ReservedName;
      assert items[i].name == ReservedName;
    }
  }

  /** Items after the last reserved one change nothing. */
  lemma {:induction false} LaterItemsIgnored(items: seq<Item>, more: seq<Item>)
    requires forall j :: 0 <= j < |more| ==> more[j].name != ReservedName
    ensures LastReserved(items + more) == LastReserved(items)
  {
    if more == [] {
      assert items + more == items;
    } else {
      var all := items + more;
      var front := more[..|more| - 1];
      assert all[..|all| - 1] == items + front;
      assert all[|all| - 1] == more[|more| - 1];
      LaterItemsIgnored(items, front);
    }
  }

  /** A reserved item listed last is adopted, whatever came before it. */
  lemma LastListedWins(items: seq<Item>, id: string)
    ensures LastReserved(items + [Item(ReservedName, id)]) == Some(id)
  {
  }

  /** bot.py:314: the token is refreshed strictly after 3000 seconds. */
  predicate RefreshDue(refreshTimer: int, now: int) {
    now - refreshTimer > RefreshPeriod
  }

  /** bot.py:321-322: `playListOnTime + 360 - now < 0`, strictly after the
      lifetime has run out. */
  predicate RotationDue(onTime: int, now: int) {
    onTime + Lifetime - now < 0
  }

  /** Both tests fire strictly after their period, and keep firing later. */
  lemma ThresholdsAreStrict(t: int, now: int, later: int)
    ensures !RefreshDue(t, t + RefreshPeriod) && RefreshDue(t, t + RefreshPeriod + 1)
    ensures !RotationDue(t, t + Lifetime) && RotationDue(t, t + Lifetime + 1)
    ensures now <= later && RefreshDue(t, now) ==> RefreshDue(t, later)
    ensures now <= later && RotationDue(t, now) ==> RotationDue(t, later)
  {
  }

  /** `/playlisttime`: the minutes until rotation, `int(...)` of a real
      difference, so truncated toward zero. */
  function MinutesLeft(onTime: int, now: int): (m: int)
    ensures now <= onTime ==> m >= Lifetime / 60
    ensures onTime <= now ==> m <= Lifetime / 60
    ensures !RotationDue(onTime, now) ==> m >= 0
    ensures m < 0 ==> RotationDue(onTime, now)
    ensures onTime + Lifetime - now >= 0 ==> 60 * m <= onTime + Lifetime - now < 60 * m + 60
    ensures onTime + Lifetime - now < 0 ==> 60 * m - 60 < onTime + Lifetime - now <= 60 * m
  {
    TruncDiv(onTime + Lifetime - now, 60)
  }

  /** In the last minute past the deadline the rotation is due while the
      reply still says 0 minutes, because of the truncation. */
  lemma ZeroMinutesWhileDue(onTime: int)
    ensures RotationDue(onTime, onTime + Lifetime + 30)
    ensures MinutesLeft(onTime, onTime + Lifetime + 30) == 0
  {
  }

  const TimeReplyOpening := "The playlist has **"
  const TimeReplyClosing := "** minutes before it self destructs"

  /** The `/playlisttime` reply. Any reply within the first minute after a
      rotation, which every later command is, reports 359 minutes, because
      `int()` truncates the 360 minutes less the time already gone; only at
      the very instant of the rotation would it report 360. */
  function PlaylistTimeReply(onTime: int, now: int): (r: string)
    ensures 0 < now - onTime < 60 ==> r == TimeReplyOpening + "359" + TimeReplyClosing
    ensures now == onTime ==> r == TimeReplyOpening + "360" + TimeReplyClosing
  {
    var minutes := MinutesLeft(onTime, now);
    assert 0 < now - onTime < 60 ==> IntToString(minutes) == "359" by {
      if 0 < now - onTime < 60 {
        assert minutes == 359;
        assert NatToString(3) == "3";
        assert NatToString(35) == "35";
      }
    }
    assert now == onTime ==> IntToString(minutes) == "360" by {
      if now == onTime {
        assert minutes == 360;
        assert NatToString(3) == "3";
        assert NatToString(36) == "36";
      }
    }
    TimeReplyOpening + IntToString(minutes) + TimeReplyClosing
  }

  const RestartReply := "Playlist Restarted"

  /** The playlist globals. */
  class PlaylistKeeper {
    var playList: string
    /** `playListOnTime`, in seconds. */
    var onTime: int
    /** `STOKEN`. */
    var token: string
    var refreshTimer: int

    /** Start-up: `playList` is empty and `playListOnTime` is 0, and the token
        is fetched when the module loads (bot.py:66-68). */
    constructor (firstToken: string, now: int)
      ensures playList == "" && onTime == 0
      ensures token == firstToken && refreshTimer == now
    {
      playList, onTime := "", 0;
      token, refreshTimer := firstToken, now;
    }

    /** The scan of bot.py:90-105, 332-347 and 379-395 over a listing: every
        reserved item overwrites `playList`, and only when no name in
        `playlistNames` is reserved is the playlist created, with id
        `created`. */
    method Adopt(items: seq<Item>, created: string) returns (made: bool)
      modifies this`playList
      ensures made <==> LastReserved(items).None?
      ensures playList == LastReserved(items).GetOr(created)
    {
      var names: seq<string> := [];
      var i := 0;
      while i < |items|
        invariant 0 <= i <= |items|
        invariant names == Names(items[..i])
        invariant playList == LastReserved(items[..i]).GetOr(old(playList))
      {
        assert items[..i + 1][..i] == items[..i];
        names := names + [items[i].name];
        if items[i].name == ReservedName {
          playList := items[i].id;
        }
        i := i + 1;
      }
      assert items[..i] == items;
      ReservedListed(items);
      if ReservedName in names {
        made := false;
      } else {
        playList := created;
        made := true;
      }
    }

    /** `on_ready`: list the playlists, adopt or create, start the clock. */
    method OnReady(items: seq<Item>, created: string, now: int) returns (calls: seq<SpotifyCall>)
      modifies this`playList, this`onTime
      ensures playList == LastReserved(items).GetOr(created)
      ensures onTime == now
      ensures calls == [GetUserPlaylists(token)]
                       + (if LastReserved(items).None? then [CreatePlaylist(token)] else [])
    {
      var made := Adopt(items, created);
      calls := [GetUserPlaylists(token)] + (if made then [CreatePlaylist(token)] else []);
      onTime := now;
    }

    /** bot.py:313-318: refresh the token once it is due. */
    method RefreshIfDue(now: int, newToken: string) returns (calls: seq<SpotifyCall>)
      modifies this`token, this`refreshTimer
      ensures RefreshDue(old(refreshTimer), now) ==>
        token == newToken && refreshTimer == now && calls == [RefreshAuthorization]
      ensures !RefreshDue(old(refreshTimer), now) ==>
        token == old(token) && refreshTimer == old(refreshTimer) && calls == []
      ensures !RefreshDue(refreshTimer, now)
    {
      calls := [];
      if now - refreshTimer > RefreshPeriod {
        token := newToken;
        refreshTimer := now;
        calls := [RefreshAuthorization];
      }
    }

    /** Remove the current playlist, then find or create one and restart its
        clock: the common body of the rotation and of
        `/restartPlaylistEverything`. */
    method Renew(items: seq<Item>, created: string, now: int) returns (calls: seq<SpotifyCall>)
      modifies this`playList, this`onTime
      ensures playList == LastReserved(items).GetOr(created)
      ensures onTime == now
      ensures calls == [RemovePlaylist(token, old(playList)), GetUserPlaylists(token)]
                       + (if LastReserved(items).None? then [CreatePlaylist(token)] else [])
    {
      var removed := playList;
      var made := Adopt(items, created);
      calls := [RemovePlaylist(token, removed), GetUserPlaylists(token)]
               + (if made then [CreatePlaylist(token)] else []);
      onTime := now;
    }

    /** bot.py:320-349: rotate the playlist once its lifetime has run out. */
    method RotateIfDue(items: seq<Item>, created: string, now: int) returns (calls: seq<SpotifyCall>)
      modifies this`playList, this`onTime
      ensures RotationDue(old(onTime), now) ==>
        && playList == LastReserved(items).GetOr(created) && onTime == now
        && calls == [RemovePlaylist(token, old(playList)), GetUserPlaylists(token)]
                    + (if LastReserved(items).None? then [CreatePlaylist(token)] else [])
      ensures !RotationDue(old(onTime), now) ==>
        playList == old(playList) && onTime == old(onTime) && calls == []
      ensures !RotationDue(onTime, now)
    {
      calls := [];
      if onTime + Lifetime - now < 0 {
        calls := Renew(items, created, now);
      }
    }

    /** `/restartPlaylistEverything`. */
    method Restart(items: seq<Item>, created: string, now: int) returns (calls: seq<SpotifyCall>, reply: string)
      modifies this`playList, this`onTime
      ensures playList == LastReserved(items).GetOr(created)
      ensures onTime == now && MinutesLeft(onTime, now) == Lifetime / 60
      ensures calls == [RemovePlaylist(token, old(playList)), GetUserPlaylists(token)]
                       + (if LastReserved(items).None? then [CreatePlaylist(token)] else [])
      ensures reply == RestartReply
    {
      calls := Renew(items, created, now);
      reply := RestartReply;
    }

    /** `/playlisttime`. */
    method PlaylistTime(now: int) returns (reply: string)
      ensures reply == PlaylistTimeReply(onTime, now)
    {
      reply := TimeReplyOpening + IntToString(TruncDiv(onTime + Lifetime - now, 60)) + TimeReplyClosing;
    }
  }
}

=== FILE: polls.dfy ===
/**
 * The poll dialogue of `/poll` and `on_message`. The globals `pollStep`
 * (0, 1 or 2), `pollCreator`, `pollDict`, `charResp`, `emojiResponse` and
 * `fullResponse` are the fields of `PollMachine`; `PollVars` is their value,
 * and `StartPoll` and `Receive` say what one command or one message does to it.
 *
 * Kept as the source has them: `pollCreator` is never cleared, `charResp` and
 * `emojiResponse` are never reset between polls, a consumed message is still
 * handed to command dispatch, and the announcement labels its lines with
 * `emojiResponse[0]`, `emojiResponse[1]`, ... of the ever-growing list.
 */
module Polls {
  import opened PyText
  import opened Chat

  /** `ord('a')`: the first value of `charResp`. */
  const FirstLetter := 97

  /** The marker of answer n is the character FirstLetter + n, which must be a
      character below the surrogate block. */
  const MaxAnswers := 0xD800 - FirstLetter

  /** `chr` raises past this code point. */
  const MaxCodePoint := 0x10FFFF

  /** `emojiLetters`: the 26 regional indicator symbols A to Z. */
  const EmojiLetters: seq<char> := "\U{1F1E6}\U{1F1E7}\U{1F1E8}\U{1F1E9}\U{1F1EA}\U{1F1EB}\U{1F1EC}\U{1F1ED}\U{1F1EE}\U{1F1EF}\U{1F1F0}\U{1F1F1}\U{1F1F2}\U{1F1F3}\U{1F1F4}\U{1F1F5}\U{1F1F6}\U{1F1F7}\U{1F1F8}\U{1F1F9}\U{1F1FA}\U{1F1FB}\U{1F1FC}\U{1F1FD}\U{1F1FE}\U{1F1FF}"

  const AlreadyPolling := "Someone is already making a poll"
  const AnswersPrompt := "Type the responses separated by commas"

  /** `pollDict[creator]`: `[pollStart, pollEnd, ctx]` followed by the texts the
      creator sent afterwards (question, then answers). Times are in seconds. */
  datatype PollRecord = PollRecord(start: int, end: int, ctx: Sink, texts: seq<string>)

  datatype PollVars = PollVars(
    step: int,
    creator: string,
    dict: map<string, PollRecord>,
    charResp: nat,
    emojiResponse: seq<nat>,
    fullResponse: string)

  /** What handling one message does besides changing the poll state: whether
      the message is deleted, what is posted in its channel, which reactions
      are added to the post, and whether the message then reaches command
      dispatch (`bot.process_commands`). */
  datatype Outcome = Outcome(deleted: bool, posts: seq<string>, reactions: seq<char>, forwarded: bool)

  const PassThrough := Outcome(false, [], [], true)

  /** What the source keeps true of its poll globals: a step in progress has a
      record for its creator holding one text per step completed, and
      `emojiResponse` is the list `a`, `b`, `c`, ... with `charResp` next. */
  ghost predicate Inv(v: PollVars) {
    && 0 <= v.step <= 2
    && (v.step != 0 ==> v.creator in v.dict)
    && (v.step == 1 ==> v.dict[v.creator].texts == [])
    && (v.step == 2 ==> |v.dict[v.creator].texts| >= 1)
    && v.charResp == FirstLetter + |v.emojiResponse|
    && forall k :: 0 <= k < |v.emojiResponse| ==> v.emojiResponse[k] == FirstLetter + k
  }

  const Initial := PollVars(0, "", map[], FirstLetter, [], "")

  /** `':regional_indicator_' + chr(code) + ':'`. */
  function MarkerText(code: nat): string
    requires code < 0xD800
  {
    ":regional_indicator_" + [code as char] + ":"
  }

  function Header(question: string): string {
    "**" + question + "** \n"
  }

  /** Line n of the announcement: the n-th fragment, labelled with letter n. */
  function OptionLine(fragment: string, n: nat): string
    requires n < MaxAnswers
  {
    fragment + ": " + MarkerText(FirstLetter + n) + "\n"
  }

  function OptionLines(fragments: seq<string>): seq<string>
    requires |fragments| <= MaxAnswers
  {
    seq(|fragments|, n requires 0 <= n < |fragments| => OptionLine(fragments[n], n))
  }

  function Concat(lines: seq<string>): string {
    if lines == [] then "" else Concat(lines[..|lines| - 1]) + lines[|lines| - 1]
  }

  /** The poll message: the question in bold, then one line per fragment in
      input order, the first labelled `a`, the next `b`, and so on. It always
      opens with the bold question. */
  function Announcement(question: string, fragments: seq<string>): (r: string)
    requires |fragments| <= MaxAnswers
    ensures |Header(question)| <= |r| && r[..|Header(question)|] == Header(question)
  {
    Header(question) + Concat(OptionLines(fragments))
  }

  /** Labelling one more fragment appends one line to the announcement. */
  lemma AnnouncementSnoc(question: string, fragments: seq<string>, n: nat)
    requires n < |fragments| <= MaxAnswers
    ensures Announcement(question, fragments[..n + 1])
         == Announcement(question, fragments[..n]) + OptionLine(fragments[n], n)
  {
    var lines := OptionLines(fragments[..n + 1]);
    assert lines[..n] == OptionLines(fragments[..n]);
    assert lines[n] == OptionLine(fragments[n], n);
  }

  /** The code points `charResp` runs through while labelling `n` answers. */
  function Codes(from: nat, n: nat): seq<nat> {
    seq(n, i requires 0 <= i < n => from + i)
  }

  /** Appending the next `n` codes to the list `a`, `b`, `c`, ... keeps it that list. */
  lemma CodesExtend(e: seq<nat>, from: nat, n: nat)
    requires from == FirstLetter + |e|
    requires forall k :: 0 <= k < |e| ==> e[k] == FirstLetter + k
    ensures forall k :: 0 <= k < |e + Codes(from, n)| ==> (e + Codes(from, n))[k] == FirstLetter + k
  {
    forall k | 0 <= k < |e + Codes(from, n)|
      ensures (e + Codes(from, n))[k] == FirstLetter + k
    {
      if k >= |e| {
        assert (e + Codes(from, n))[k] == Codes(from, n)[k - |e|];
      }
    }
  }

  /** The answers text the second step reads: `list[4]` once the message has
      been appended to the creator's record. */
  function PendingAnswers(v: PollVars, content: string): string
    requires v.creator in v.dict && |v.dict[v.creator].texts| >= 1
  {
    (v.dict[v.creator].texts + [content])[1]
  }

  /** The second step can label its answers: every marker is a character and
      `chr` never runs past the last code point. */
  predicate CanAnnounce(v: PollVars, content: string)
    requires v.creator in v.dict && |v.dict[v.creator].texts| >= 1
  {
    var n := |Split(PendingAnswers(v, content), ',')|;
    n <= MaxAnswers && v.charResp + n <= MaxCodePoint
  }

  /** Whether `message` from `author` would reach the step that announces. */
  predicate Announcing(v: PollVars, author: Member) {
    author.Display() == v.creator && v.step == 2
  }

  /** `/poll`: refused, with no change, while a poll is being made; otherwise
      the author becomes the creator, their record restarts as
      `[now, now + 60 minutes, ctx]`, and the dialogue moves to step 1. */
  function StartPoll(v: PollVars, author: Member, now: int, ctx: Sink): (r: (PollVars, string))
    requires Inv(v)
    ensures Inv(r.0)
    ensures v.step != 0 ==> r == (v, AlreadyPolling)
    ensures v.step == 0 ==>
      && r.0 == v.(step := 1, creator := author.Display(),
                   dict := v.dict[author.Display() := PollRecord(now, now + 3600, ctx, [])])
      && r.1 == author.Display() + " please type a question"
  {
    if v.step != 0 then (v, AlreadyPolling)
    else
      var creator := author.Display();
      (v.(step := 1, creator := creator, dict := v.dict[creator := PollRecord(now, now + 3600, ctx, [])]),
       creator + " please type a question")
  }

  /** `on_message`. A message from anyone but `pollCreator`, or from
      `pollCreator` while no poll is being made, changes nothing and goes to
      command dispatch. In step 1 the creator's message becomes the question.
      In step 2 it is appended as well, the answers text `list[4]` is split on
      commas, the announcement is posted, `charResp` and `emojiResponse`
      advance by one per answer, and one reaction per answer is added; with more
      than 26 answers `emojiLetters[26]` raises, so the step stays 2 and the
      message never reaches command dispatch. */
  function Receive(v: PollVars, author: Member, content: string): (r: (PollVars, Outcome))
    requires Inv(v)
    requires Announcing(v, author) ==> CanAnnounce(v, content)
    ensures Inv(r.0)
    ensures author.Display() != v.creator || v.step == 0 ==> r == (v, PassThrough)
    ensures r.0.creator == v.creator
    ensures v.emojiResponse <= r.0.emojiResponse && v.charResp <= r.0.charResp
    ensures author.Display() == v.creator && v.step == 1 ==>
      && r.0 == v.(step := 2, dict := v.dict[v.creator := v.dict[v.creator].(texts := [content])])
      && r.1 == Outcome(true, [AnswersPrompt], [], true)
    ensures Announcing(v, author) ==>
      var fragments := Split(PendingAnswers(v, content), ',');
      var rec := v.dict[v.creator];
      var text := Announcement(rec.texts[0], fragments);
      && r.0 == v.(step := if |fragments| <= |EmojiLetters| then 0 else 2,
                   dict := v.dict[v.creator := rec.(texts := rec.texts + [content])],
                   charResp := v.charResp + |fragments|,
                   emojiResponse := v.emojiResponse + Codes(v.charResp, |fragments|),
                   fullResponse := text)
      && r.1.posts == [text]
    ensures !Announcing(v, author) ==> r.1.forwarded
    ensures Announcing(v, author) ==> (r.1.forwarded <==> r.0.step == 0)
  {
    if author.Display() != v.creator then (v, PassThrough)
    else if v.step == 1 then
      var rec := v.dict[v.creator];
      assert rec.texts + [content] == [content];
      (v.(step := 2, dict := v.dict[v.creator := rec.(texts := rec.texts + [content])]),
       Outcome(true, [AnswersPrompt], [], true))
    else if v.step == 2 then
      var rec := v.dict[v.creator];
      var texts := rec.texts + [content];
      var fragments := Split(texts[1], ',');
      var n := |fragments|;
      var text := Announcement(texts[0], fragments);
      var v' := v.(dict := v.dict[v.creator := rec.(texts := texts)],
                   charResp := v.charResp + n,
                   emojiResponse := v.emojiResponse + Codes(v.charResp, n),
                   fullResponse := text,
                   step := if n <= |EmojiLetters| then 0 else 2);
      CodesExtend(v.emojiResponse, v.charResp, n);
      (v', Outcome(true, [text], EmojiLetters[..if n <= |EmojiLetters| then n else |EmojiLetters|], n <= |EmojiLetters|))
    else (v, PassThrough)
  }

  /** A whole dialogue from an idle state: `/poll`, the question, then at most
      26 answers. It announces the question with the answers split on commas
      and labelled from `a` whatever earlier polls used, adds one reaction per
      answer, returns to step 0 with `pollCreator` still set, advances
      `charResp` past the answers, and the next `/poll`, by anyone, starts. */
  lemma {:induction false} DialogueCompletes(v: PollVars, a: Member, b: Member, now: int, later: int,
                                             ctx: Sink, ctx': Sink, question: string, answers: string)
    requires Inv(v) && v.step == 0
    requires |Split(answers, ',')| <= |EmojiLetters|
    requires v.charResp + |EmojiLetters| <= MaxCodePoint
    ensures var v1 := StartPoll(v, a, now, ctx).0;
      var r2 := Receive(v1, a, question);
      Announcing(r2.0, a) && CanAnnounce(r2.0, answers) &&
      var r3 := Receive(r2.0, a, answers);
      var n := |Split(answers, ',')|;
      && r2.1 == Outcome(true, [AnswersPrompt], [], true)
      && r3.1 == Outcome(true, [Announcement(question, Split(answers, ','))], EmojiLetters[..n], true)
      && r3.0.step == 0 && r3.0.creator == a.Display()
      && r3.0.charResp == v.charResp + n
      && r3.0.emojiResponse == v.emojiResponse + Codes(v.charResp, n)
      && r3.0.dict[a.Display()].texts == [question, answers]
      && StartPoll(r3.0, b, later, ctx').0.step == 1
      && StartPoll(r3.0, b, later, ctx').0.creator == b.Display()
  {
    var v1 := StartPoll(v, a, now, ctx).0;
    var v2 := Receive(v1, a, question).0;
    assert v2.dict[a.Display()].texts == [question];
    assert PendingAnswers(v2, answers) == answers;
  }

  /** More than 26 answers wedge the dialogue: the step stays 2, so `/poll` is
      refused from then on, and every later message from the creator is
      deleted and answered with the same announcement again, because
      `list[4]` still holds the first answers text. */
  lemma {:induction false} TooManyAnswersWedge(v: PollVars, a: Member, content: string, next: string)
    requires Inv(v) && Announcing(v, a) && CanAnnounce(v, content)
    requires |Split(PendingAnswers(v, content), ',')| > |EmojiLetters|
    ensures var r1 := Receive(v, a, content);
      && r1.0.step == 2 && !r1.1.forwarded && r1.1.reactions == EmojiLetters
      && StartPoll(r1.0, a, 0, Sink(0)).1 == AlreadyPolling
      && (CanAnnounce(r1.0, next) ==>
            var r2 := Receive(r1.0, a, next);
            r2.0.step == 2 && r2.1.posts == r1.1.posts && r2.1.deleted)
  {
    var v1 := Receive(v, a, content).0;
    assert v1.dict[v.creator].texts == v.dict[v.creator].texts + [content];
    assert PendingAnswers(v1, next) == PendingAnswers(v, content);
  }

  /** Three answers separated by commas, e.g. "red, green, blue": three
      fragments, the spaces after the commas kept. */
  lemma SplitThree(x: string, y: string, z: string)
    requires ',' !in x && ',' !in y && ',' !in z
    ensures Split(x + "," + y + "," + z, ',') == [x, y, z]
  {
    SplitWithoutSep(z, ',');
    SplitAfterFragment(y, z, ',');
    SplitAfterFragment(x, y + [','] + z, ',');
    assert x + "," + y + "," + z == x + [','] + (y + [','] + z);
  }

  lemma AnnouncementThreeLines(question: string, x: string, y: string, z: string)
    ensures Announcement(question, [x, y, z])
      == Header(question) + OptionLine(x, 0) + OptionLine(y, 1) + OptionLine(z, 2)
  {
    var f := [x, y, z];
    assert f[..0] == [] && f[..3] == f;
    assert Announcement(question, f[..0]) == Header(question);
    AnnouncementSnoc(question, f, 0);
    AnnouncementSnoc(question, f, 1);
    AnnouncementSnoc(question, f, 2);
  }

  /** Lines 0, 1 and 2 are labelled a, b and c. */
  lemma LabelA(x: string)
    ensures OptionLine(x, 0) == x + ": :regional_indicator_a:\n"
  {
  }

  lemma LabelB(x: string)
    ensures OptionLine(x, 1) == x + ": :regional_indicator_b:\n"
  {
  }

  lemma LabelC(x: string)
    ensures OptionLine(x, 2) == x + ": :regional_indicator_c:\n"
  {
  }

  /** The announcement of three fragments: the question in bold, then the
      three fragments in input order, labelled a, b and c. */
  lemma AnnouncementOfThree(question: string, x: string, y: string, z: string)
    ensures Announcement(question, [x, y, z])
      == "**" + question + "** \n"
         + x + ": :regional_indicator_a:\n"
         + y + ": :regional_indicator_b:\n"
         + z + ": :regional_indicator_c:\n"
  {
    AnnouncementThreeLines(question, x, y, z);
    LabelA(x);
    LabelB(y);
    LabelC(z);
  }

  /** The poll globals, owned by the bot process. */
  class PollMachine {
    var step: int
    var creator: string
    var dict: map<string, PollRecord>
    var charResp: nat
    var emojiResponse: seq<nat>
    var fullResponse: string

    function State(): PollVars
      reads this
    {
      PollVars(step, creator, dict, charResp, emojiResponse, fullResponse)
    }

    ghost predicate Valid()
      reads this
    {
      Inv(State())
    }

    constructor ()
      ensures Valid() && State() == Initial
    {
      step, creator, dict := 0, "", map[];
      charResp, emojiResponse, fullResponse := FirstLetter, [], "";
    }

    /** `/poll`. */
    method Begin(author: Member, now: int, ctx: Sink) returns (reply: string)
      requires Valid()
      modifies this
      ensures Valid()
      ensures (State(), reply) == StartPoll(old(State()), author, now, ctx)
    {
      if step != 0 {
        return AlreadyPolling;
      }
      step := 1;
      creator := author.Display();
      dict := dict[creator := PollRecord(now, now + 3600, ctx, [])];
      reply := creator + " please type a question";
    }

    /** `on_message`. */
    method OnMessage(author: Member, content: string) returns (out: Outcome)
      requires Valid()
      requires Announcing(State(), author) ==> CanAnnounce(State(), content)
      modifies this
      ensures Valid()
      ensures (State(), out) == Receive(old(State()), author, content)
    {
      if author.Display() == creator {
        if step == 1 {
          var rec := dict[creator];
          dict := dict[creator := rec.(texts := rec.texts + [content])];
          step := 2;
          return Outcome(true, [AnswersPrompt], [], true);
        }
        if step == 2 {
          var rec := dict[creator];
          rec := rec.(texts := rec.texts + [content]);
          dict := dict[creator := rec];
          var question := rec.texts[0];
          var fragments := Split(rec.texts[1], ',');
          out := Announce(question, fragments);
          return;
        }
      }
      out := PassThrough;
    }

    /** The second step after the record is updated: build and post the
        announcement, advancing `charResp` and `emojiResponse` once per
        fragment, then add one reaction per fragment from `emojiLetters`,
        which raises `IndexError` at the 27th. */
    method Announce(question: string, fragments: seq<string>) returns (out: Outcome)
      requires Valid() && step == 2
      requires |fragments| <= MaxAnswers && charResp + |fragments| <= MaxCodePoint
      modifies this`charResp, this`emojiResponse, this`fullResponse, this`step
      ensures Valid()
      ensures charResp == old(charResp) + |fragments|
      ensures emojiResponse == old(emojiResponse) + Codes(old(charResp), |fragments|)
      ensures fullResponse == Announcement(question, fragments)
      ensures step == if |fragments| <= |EmojiLetters| then 0 else 2
      ensures var shown := if |fragments| <= |EmojiLetters| then |fragments| else |EmojiLetters|;
        out == Outcome(true, [fullResponse], EmojiLetters[..shown], |fragments| <= |EmojiLetters|)
    {
      Label(question, fragments);
      var reactions, raised := React(|fragments|);
      out := Outcome(true, [fullResponse], reactions, !raised);
      if !raised {
        step := 0;
      }
    }

    /** The formatting loop: one line per fragment, each appending the marker
        for `charResp` to `emojiResponse` and advancing `charResp`, each
        labelled with `emojiResponse[n]`. */
    method Label(question: string, fragments: seq<string>)
      requires Valid()
      requires |fragments| <= MaxAnswers && charResp + |fragments| <= MaxCodePoint
      modifies this`charResp, this`emojiResponse, this`fullResponse
      ensures Valid()
      ensures charResp == old(charResp) + |fragments|
      ensures emojiResponse == old(emojiResponse) + Codes(old(charResp), |fragments|)
      ensures fullResponse == Announcement(question, fragments)
    {
      fullResponse := Header(question);
      var n := 0;
      assert fragments[..0] == [];
      while n < |fragments|
        invariant 0 <= n <= |fragments|
        invariant charResp == old(charResp) + n == FirstLetter + |emojiResponse|
        invariant emojiResponse == old(emojiResponse) + Codes(old(charResp), n)
        invariant forall k :: 0 <= k < |emojiResponse| ==> emojiResponse[k] == FirstLetter + k
        invariant fullResponse == Announcement(question, fragments[..n])
      {
        AnnouncementSnoc(question, fragments, n);
        assert Codes(old(charResp), n + 1) == Codes(old(charResp), n) + [charResp];
        emojiResponse := emojiResponse + [charResp];
        charResp := charResp + 1;
        fullResponse := fullResponse + (fragments[n] + ": " + MarkerText(emojiResponse[n]) + "\n");
        n := n + 1;
      }
      assert fragments[..n] == fragments;
    }

    /** The reaction loop: `emojiLetters[y]` for y = 0, 1, ... one per
        fragment; `emojiLetters[26]` raises `IndexError`. */
    static method React(count: nat) returns (reactions: seq<char>, raised: bool)
      ensures raised <==> count > |EmojiLetters|
      ensures reactions == EmojiLetters[..if count <= |EmojiLetters| then count else |EmojiLetters|]
    {
      reactions, raised := [], false;
      var y := 0;
      while y < count && !raised
        invariant 0 <= y <= count && y <= |EmojiLetters|
        invariant reactions == EmojiLetters[..y]
        invariant raised ==> y == |EmojiLetters| < count
        decreases count - y, !raised
      {
        if y >= |EmojiLetters| {
          raised := true;
        } else {
          reactions := reactions + [EmojiLetters[y]];
          y := y + 1;
        }
      }
    }
  }
}

=== FILE: shots.dfy ===
/**
 * The shot counter: the global dictionary `people` from a lower-cased name to
 * the number of shots taken, with `/shot`, `/clearShot` and `/howmany`.
 */
module Shots {
  import opened PyText
  import opened PyDict

  type People = Dict<string, nat>

  /** The name `/shot` counts: the message lower-cased, with every
      "/shot " and then every "/shot" removed. */
  function ShotName(content: string): string {
    Replace(Replace(Lower(content), "/shot ", ""), "/shot", "")
  }

  /** The counted name holds no upper-case letter and no character the
      message did not have. */
  lemma ShotNameClean(content: string)
    ensures NoUpper(ShotName(content))
    ensures multiset(ShotName(content)) <= multiset(Lower(content))
  {
    var low := Lower(content);
    ReplaceDeletes(low, "/shot ");
    ReplaceDeletes(Replace(low, "/shot ", ""), "/shot");
    var name := ShotName(content);
    assert forall i :: 0 <= i < |name| ==> name[i] in multiset(low);
  }

  /** `/shot Name` counts the lower-cased name. */
  lemma ShotNameOf(name: string)
    requires '/' !in name
    ensures ShotName("/shot " + name) == Lower(name)
  {
    assert '/' !in Lower(name) by {
      forall i | 0 <= i < |name| ensures Lower(name)[i] != '/' {
        assert name[i] != '/';
      }
    }
    var low := Lower(name);
    LowerUnchanged("/shot ");
    LowerAppend("/shot ", name);
    assert Lower("/shot " + name) == "/shot " + low;
    ReplaceLeading("/shot ", low, "");
    ReplaceAbsent(low, "/shot ", "");
    assert Replace("/shot " + low, "/shot ", "") == low;
    ReplaceAbsent(low, "/shot", "");
  }

  /** A bare `/shot` counts the empty name. */
  lemma BareShotIsEmptyName()
    ensures ShotName("/shot") == ""
  {
    LowerUnchanged("/shot");
    assert Replace("/shot", "/shot ", "") == "/shot";
    ReplaceLeading("/shot", "", "");
  }

  /** `people[name]`, or 0 for a name never counted. */
  function Count(people: People, name: string): nat {
    if name in people.vals then people.vals[name] else 0
  }

  /** Every counted name has taken at least one shot. */
  ghost predicate Counted(people: People) {
    people.Valid() && forall k :: k in people.vals ==> people.vals[k] >= 1
  }

  /** One `/shot`: the name's count goes up by one, or starts at 1. */
  function AddShot(people: People, name: string): (r: People)
    requires Counted(people)
    ensures Counted(r)
    ensures Count(r, name) == Count(people, name) + 1
    ensures forall k :: k != name ==> Count(r, k) == Count(people, k)
    ensures name in people.vals ==> r.keys == people.keys
    ensures name !in people.vals ==> r.keys == people.keys + [name]
  {
    Put(people, name, Count(people, name) + 1)
  }

  function ShotMessage(name: string, count: nat): string {
    name + " has taken " + NatToString(count) + " shots!"
  }

  /** The dictionary after a run of `/shot` names counted from `people`. */
  function Tally(people: People, names: seq<string>): (r: People)
    requires Counted(people)
    ensures Counted(r)
  {
    if names == [] then people
    else AddShot(Tally(people, names[..|names| - 1]), names[|names| - 1])
  }

  /** After `/clearShot`, a name's count is the number of `/shot`s naming
      it, and the names listed are exactly those that were named. */
  lemma {:induction false} TallyCounts(names: seq<string>, name: string)
    ensures Count(Tally(Empty(), names), name) == multiset(names)[name]
    ensures name in Tally(Empty(), names).vals <==> name in names
  {
    if names != [] {
      var init := names[..|names| - 1];
      TallyCounts(init, name);
      assert names == init + [names[|names| - 1]];
      assert multiset(names) == multiset(init) + multiset{names[|names| - 1]};
    }
  }

  /** The `people` global. */
  class ShotCounter {
    var people: People

    ghost predicate Valid()
      reads this
    {
      Counted(people)
    }

    constructor ()
      ensures Valid() && people == Empty()
    {
      people := Empty();
    }

    /** `/shot`: an empty name is answered "Please give a name" and is then
        counted like any other. */
    method Shot(content: string) returns (replies: seq<string>)
      requires Valid()
      modifies this
      ensures Valid()
      ensures people == AddShot(old(people), ShotName(content))
      ensures replies == (if ShotName(content) == "" then ["Please give a name"] else [])
                         + [ShotMessage(ShotName(content), Count(people, ShotName(content)))]
    {
      var name := ShotName(content);
      replies := [];
      if name == "" {
        replies := ["Please give a name"];
      }
      if name in people.vals {
        people := Put(people, name, people.vals[name] + 1);
      } else {
        people := Put(people, name, 1);
      }
      replies := replies + [ShotMessage(name, people.vals[name])];
    }

    /** `/clearShot`. */
    method ClearShot() returns (reply: string)
      modifies this
      ensures Valid() && people == Empty()
      ensures reply == "Clearing shots"
    {
      reply := "Clearing shots";
      people := Empty();
    }

    /** `/howmany`: one line per name in the order the names were first
        counted; nothing at all when nobody has taken a shot. */
    method HowMany() returns (replies: seq<string>)
      requires Valid()
      ensures |replies| == |people.keys|
      ensures forall i :: 0 <= i < |replies| ==>
        replies[i] == ShotMessage(people.keys[i], people.vals[people.keys[i]])
    {
      replies := [];
      var i := 0;
      while i < |people.keys|
        invariant 0 <= i <= |people.keys|
        invariant |replies| == i
        invariant forall j :: 0 <= j < i ==>
          replies[j] == ShotMessage(people.keys[j], people.vals[people.keys[j]])
      {
        var name := people.keys[i];
        replies := replies + [ShotMessage(name, people.vals[name])];
        i := i + 1;
      }
    }
  }
}

/**
 * `/nug`: the nugget emoji, repeated as many times as asked, unless the
 * message would reach Discord's 2000-character limit.
 */
module Nugs {
  import opened Wrappers
  import opened PyText

  const Nug := "<:nugget:724445623906205756>"
  const TooManyNugs := "That's too many nugs"

  /** Discord refuses messages of this many characters or more. */
  const MessageLimit := 2000

  /** `s * n`: empty for n <= 0. */
  function Repeat(s: string, n: int): (r: string)
    ensures |r| == if n <= 0 then 0 else n * |s|
    decreases n
  {
    if n <= 0 then "" else s + Repeat(s, n - 1)
  }

  /** CPython's largest and smallest index-sized integer (`Py_ssize_t` on a
      64-bit build). */
  const SsizeMax := 0x7FFF_FFFF_FFFF_FFFF
  const SsizeMin := -0x8000_0000_0000_0000

  /** Where `Nug * n` raises `OverflowError`: n does not fit an index-sized
      integer, or the repeated string would be longer than `SsizeMax`. */
  predicate RepeatOverflows(n: int) {
    n < SsizeMin || n > SsizeMax / |Nug|
  }

  /** What `/nug` sends, or None where `int(...)` or the repetition raises
      and nothing is sent. Only "/nug" is removed; `strip()`'s result is
      discarded, but `int()` skips the surrounding whitespace itself. Whatever
      is sent fits in one message. */
  function NugReply(content: string): (r: Option<string>)
    ensures r.Some? ==> |r.value| < MessageLimit
    ensures r.None? <==>
      var rest := Replace(content, "/nug", "");
      rest != "" && (ParseInt(rest).None? || RepeatOverflows(ParseInt(rest).value))
  {
    var rest := Replace(content, "/nug", "");
    if rest == "" then Some(Nug)
    else match ParseInt(rest)
      case None => None
      case Some(n) =>
        if RepeatOverflows(n) then None
        else
          var response := Repeat(Nug, n);
          Some(if |response| < MessageLimit then response else TooManyNugs)
  }

  /** The text after "/nug" in `/nug n` reads back as n. */
  lemma NugArgument(n: int)
    ensures Replace("/nug " + IntToString(n), "/nug", "") == " " + IntToString(n)
    ensures ParseInt(" " + IntToString(n)) == Some(n)
  {
    var digits := IntToString(n);
    ReplaceLeading("/nug", " " + digits, "");
    assert "/nug " + digits == "/nug" + (" " + digits);
    assert '/' !in " " + digits by {
      if n < 0 {
        assert digits == "-" + NatToString(-n);
      }
      assert forall i :: 0 <= i < |digits| ==> digits[i] != '/';
    }
    ReplaceAbsent(" " + digits, "/nug", "");
    ParseIntOfString(" ", n);
  }

  /** 71 nuggets fit in a message, 72 do not. */
  lemma NugLength(n: int)
    ensures n <= 71 <==> |Repeat(Nug, n)| < MessageLimit
  {
    assert |Nug| == 28;
    if n >= 72 {
      assert n * 28 >= 72 * 28;
    } else if n > 0 {
      assert n * 28 <= 71 * 28;
    }
  }

  /** `/nug n` sends n nuggets exactly when they fit, at most 71, an empty
      message for n <= 0, and nothing at all where the repetition overflows. */
  lemma NugBound(n: int)
    ensures NugReply("/nug " + IntToString(n))
         == if RepeatOverflows(n) then None
            else Some(if n <= 71 then Repeat(Nug, n) else TooManyNugs)
    ensures SsizeMin <= n <= 0 ==> NugReply("/nug " + IntToString(n)) == Some("")
    ensures 71 < n <= SsizeMax / |Nug| ==> NugReply("/nug " + IntToString(n)) == Some(TooManyNugs)
  {
    assert |Nug| == 28;
    NugArgument(n);
    NugReplyParsed("/nug " + IntToString(n), n);
    NugLength(n);
  }

  lemma NugReplyParsed(content: string, n: int)
    requires Replace(content, "/nug", "") != ""
    requires ParseInt(Replace(content, "/nug", "")) == Some(n)
    ensures NugReply(content) == if RepeatOverflows(n) then None
      else Some(if |Repeat(Nug, n)| < MessageLimit then Repeat(Nug, n) else TooManyNugs)
  {
  }

  /** A number followed by an information separator (code 28) is refused
      by `int()`, so nothing is sent. */
  lemma NugSeparatorRefused()
    ensures NugReply("/nug 5" + [28 as char]) == None
  {
    var content := "/nug 5" + [28 as char];
    var number := "5" + [28 as char];
    assert content == "/nug" + (" " + number);
    ReplaceLeading("/nug", " " + number, "");
    ReplaceAbsent(" " + number, "/nug", "");
    assert "" + (" " + number) == " " + number;
    assert Replace(content, "/nug", "") == " " + number;
    ParseIntRejects(" ", number);
    NugReplyRefused(content);
  }

  lemma NugReplyRefused(content: string)
    requires Replace(content, "/nug", "") != ""
    requires ParseInt(Replace(content, "/nug", "")) == None
    ensures NugReply(content) == None
  {
  }

  /** A bare `/nug` sends one nugget. */
  lemma BareNug()
    ensures NugReply("/nug") == Some(Nug)
  {
    ReplaceLeading("/nug", "", "");
  }
}

=== FILE: text.dfy ===
/** The optional value used where the bot's Python code raises or finds nothing. */
module Wrappers {
  datatype Option<T> = None | Some(value: T)
  {
    function GetOr(default: T): T {
      if Some? then value else default
    }
  }
}

/**
 * The few Python string and number built-ins the bot's handlers rely on:
 * `str.split`, `str.join`, `str.replace`, `str.lower`, `str.strip`, `int(...)`
 * on a string, `str(...)` on an integer, and `int(...)` on a quotient.
 */
module PyText {
  import opened Wrappers

  // ---------------------------------------------------------------------
  // str.split(sep) and sep.join(parts) for a one-character separator
  // ---------------------------------------------------------------------

  /** `s.split(sep)`: every separator ends a fragment and empty fragments are
      kept, so there is exactly one fragment more than there are separators. */
  function Split(s: string, sep: char): (parts: seq<string>)
    ensures |parts| == multiset(s)[sep] + 1
    ensures forall i :: 0 <= i < |parts| ==> sep !in parts[i]
  {
    if s == [] then [""]
    else
      var rest := Split(s[1..], sep);
      assert s == [s[0]] + s[1..];
      if s[0] == sep then [""] + rest
      else [[s[0]] + rest[0]] + rest[1..]
  }

  /** `sep.join(parts)`. */
  function Join(parts: seq<string>, sep: char): string
    requires |parts| >= 1
  {
    if |parts| == 1 then parts[0] else parts[0] + [sep] + Join(parts[1..], sep)
  }

  /** Fragments free of the separator are joined with exactly one separator
      between each two of them. */
  lemma {:induction false} JoinSeparators(parts: seq<string>, sep: char)
    requires |parts| >= 1
    requires forall i :: 0 <= i < |parts| ==> sep !in parts[i]
    ensures multiset(Join(parts, sep))[sep] == |parts| - 1
  {
    if |parts| > 1 {
      JoinSeparators(parts[1..], sep);
      assert sep !in parts[0];
      assert multiset(parts[0] + [sep] + Join(parts[1..], sep))
          == multiset(parts[0]) + multiset{sep} + multiset(Join(parts[1..], sep));
    }
  }

  /** Prefixing the first fragment with `c` prefixes the joined text. */
  lemma JoinPrefixFirst(c: char, parts: seq<string>, sep: char)
    requires |parts| >= 1
    ensures Join([[c] + parts[0]] + parts[1..], sep) == [c] + Join(parts, sep)
  {
    var ps := [[c] + parts[0]] + parts[1..];
    if |parts| > 1 {
      assert ps[1..] == parts[1..];
    }
  }

  /** Joining after an empty first fragment starts with the separator. */
  lemma JoinAfterEmpty(rest: seq<string>, sep: char)
    requires |rest| >= 1
    ensures Join([""] + rest, sep) == [sep] + Join(rest, sep)
  {
    assert ([""] + rest)[1..] == rest;
  }

  /** Joining the fragments of `s` gives `s[0]` followed by the join of the
      fragments of the rest. */
  lemma JoinSplitStep(s: string, sep: char)
    requires s != []
    ensures Join(Split(s, sep), sep) == [s[0]] + Join(Split(s[1..], sep), sep)
  {
    var rest := Split(s[1..], sep);
    if s[0] == sep {
      JoinAfterEmpty(rest, sep);
    } else {
      JoinPrefixFirst(s[0], rest, sep);
    }
  }

  /** Splitting loses nothing: joining the fragments gives the text back. */
  lemma {:induction false} JoinSplit(s: string, sep: char)
    ensures Join(Split(s, sep), sep) == s
  {
    if s != [] {
      JoinSplit(s[1..], sep);
      JoinSplitStep(s, sep);
      assert s == [s[0]] + s[1..];
    }
  }

  /** A fragment without the separator splits to itself. */
  lemma {:induction false} SplitWithoutSep(p: string, sep: char)
    requires sep !in p
    ensures Split(p, sep) == [p]
  {
    if p != [] {
      SplitWithoutSep(p[1..], sep);
      assert p == [p[0]] + p[1..];
    }
  }

  /** A separator-free prefix followed by a separator is a fragment of its own. */
  lemma {:induction false} SplitAfterFragment(p: string, t: string, sep: char)
    requires sep !in p
    ensures Split(p + [sep] + t, sep) == [p] + Split(t, sep)
  {
    if p == [] {
      assert p + [sep] + t == [sep] + t;
      assert ([sep] + t)[1..] == t;
    } else {
      SplitAfterFragment(p[1..], t, sep);
      assert (p + [sep] + t)[1..] == p[1..] + [sep] + t;
      assert [p[0]] + p[1..] == p;
    }
  }

  /** Joining separator-free fragments and splitting again gives the fragments back. */
  lemma {:induction false} SplitJoin(parts: seq<string>, sep: char)
    requires |parts| >= 1
    requires forall i :: 0 <= i < |parts| ==> sep !in parts[i]
    ensures Split(Join(parts, sep), sep) == parts
  {
    if |parts| == 1 {
      SplitWithoutSep(parts[0], sep);
    } else {
      SplitJoin(parts[1..], sep);
      SplitAfterFragment(parts[0], Join(parts[1..], sep), sep);
      assert [parts[0]] + parts[1..] == parts;
    }
  }

  // ---------------------------------------------------------------------
  // str.replace(pat, rep) and str.lower()
  // ---------------------------------------------------------------------

  /** `s.replace(pat, rep)`: every non-overlapping occurrence of `pat`, found
      scanning from the left, is replaced; the replacement is not rescanned. */
  function Replace(s: string, pat: string, rep: string): (r: string)
    requires pat != []
    ensures rep == [] ==> |r| <= |s|
    decreases |s|
  {
    if |s| < |pat| then s
    else if s[..|pat|] == pat then rep + Replace(s[|pat|..], pat, rep)
    else [s[0]] + Replace(s[1..], pat, rep)
  }

  /** Replacing with nothing only deletes characters. */
  lemma {:induction false} ReplaceDeletes(s: string, pat: string)
    requires pat != []
    ensures multiset(Replace(s, pat, "")) <= multiset(s)
    decreases |s|
  {
    if |s| >= |pat| {
      if s[..|pat|] == pat {
        ReplaceDeletes(s[|pat|..], pat);
        assert s == s[..|pat|] + s[|pat|..];
      } else {
        ReplaceDeletes(s[1..], pat);
        assert s == [s[0]] + s[1..];
      }
    }
  }

  /** Text that does not contain the first character of `pat` is left alone. */
  lemma {:induction false} ReplaceAbsent(s: string, pat: string, rep: string)
    requires pat != [] && pat[0] !in s
    ensures Replace(s, pat, rep) == s
  {
    if |s| >= |pat| {
      assert s[..|pat|][0] == s[0];
      ReplaceAbsent(s[1..], pat, rep);
      assert s == [s[0]] + s[1..];
    }
  }

  /** A leading occurrence of `pat` is replaced and the scan resumes after it. */
  lemma ReplaceLeading(pat: string, t: string, rep: string)
    requires pat != []
    ensures Replace(pat + t, pat, rep) == rep + Replace(t, pat, rep)
  {
    assert (pat + t)[..|pat|] == pat;
    assert (pat + t)[|pat|..] == t;
  }

  function LowerChar(c: char): char {
    if 'A' <= c <= 'Z' then (c as int + 32) as char else c
  }

  predicate NoUpper(s: string) {
    forall i :: 0 <= i < |s| ==> !('A' <= s[i] <= 'Z')
  }

  /** `s.lower()`, for the ASCII letters: no upper-case letter is left, and
      every other character stays where it was. */
  function Lower(s: string): (r: string)
    ensures |r| == |s| && NoUpper(r)
    ensures forall i :: 0 <= i < |s| && !('A' <= s[i] <= 'Z') ==> r[i] == s[i]
  {
    seq(|s|, i requires 0 <= i < |s| => LowerChar(s[i]))
  }

  lemma LowerUnchanged(s: string)
    requires NoUpper(s)
    ensures Lower(s) == s
  {
    assert forall i :: 0 <= i < |s| ==> Lower(s)[i] == s[i];
  }

  /** Lower-casing twice is lower-casing once. */
  lemma LowerTwice(s: string)
    ensures Lower(Lower(s)) == Lower(s)
  {
    LowerUnchanged(Lower(s));
  }

  lemma LowerAppend(a: string, b: string)
    ensures Lower(a + b) == Lower(a) + Lower(b)
  {
    assert forall i :: 0 <= i < |a + b| ==> Lower(a + b)[i] == (Lower(a) + Lower(b))[i];
  }

  // ---------------------------------------------------------------------
  // int(s) on a string, str(n) on an integer
  // ---------------------------------------------------------------------

  /** The characters for which `str.isspace()` holds: the ASCII controls
      9-13 and 28-31, space, and the Unicode spaces and line separators. */
  predicate IsSpace(c: char) {
    var n := c as int;
    || n == 32 || 9 <= n <= 13 || 28 <= n <= 31
    || n == 0x85 || n == 0xA0 || n == 0x1680 || 0x2000 <= n <= 0x200A
    || n == 0x2028 || n == 0x2029 || n == 0x202F || n == 0x205F || n == 0x3000
  }

  /** The characters `int()` skips around a number. Every non-ASCII
      character that `str.isspace()` accepts is first turned into a space;
      the ASCII ones are kept, and of those only space, tab, line feed,
      vertical tab, form feed and carriage return are skipped, so the
      separators 28-31 are not. */
  predicate IntSpace(c: char) {
    var n := c as int;
    n == 32 || 9 <= n <= 13 || (n >= 128 && IsSpace(c))
  }

  /** `s` without the leading characters that satisfy `ws`. */
  function TrimStart(s: string, ws: char -> bool): (r: string)
    ensures |r| <= |s|
    ensures r == [] || !ws(r[0])
  {
    if s != [] && ws(s[0]) then TrimStart(s[1..], ws) else s
  }

  /** `s` without the trailing characters that satisfy `ws`. */
  function TrimEnd(s: string, ws: char -> bool): (r: string)
    ensures |r| <= |s|
    ensures r == [] || !ws(r[|r| - 1])
    ensures r != [] ==> r[0] == s[0]
  {
    if s != [] && ws(s[|s| - 1]) then TrimEnd(s[..|s| - 1], ws) else s
  }

  lemma {:induction false} TrimStartKeeps(s: string, ws: char -> bool, c: char)
    requires c in TrimStart(s, ws)
    ensures c in s
  {
    if s != [] && ws(s[0]) {
      TrimStartKeeps(s[1..], ws, c);
    }
  }

  lemma {:induction false} TrimEndKeeps(s: string, ws: char -> bool, c: char)
    requires c in TrimEnd(s, ws)
    ensures c in s
  {
    if s != [] && ws(s[|s| - 1]) {
      TrimEndKeeps(s[..|s| - 1], ws, c);
    }
  }

  /** `s.strip()`: a piece of `s` that neither starts nor ends with
      whitespace, and `s` itself when `s` does neither. */
  function Strip(s: string): (r: string)
    ensures |r| <= |s|
    ensures r == [] || (!IsSpace(r[0]) && !IsSpace(r[|r| - 1]))
    ensures s == [] || (!IsSpace(s[0]) && !IsSpace(s[|s| - 1])) ==> r == s
  {
    TrimEnd(TrimStart(s, IsSpace), IsSpace)
  }

  /** The whitespace `int()` strips: a piece of `s` that neither starts nor
      ends with `IntSpace`, and `s` itself when `s` does neither. */
  function IntStrip(s: string): (r: string)
    ensures |r| <= |s|
    ensures r == [] || (!IntSpace(r[0]) && !IntSpace(r[|r| - 1]))
    ensures s == [] || (!IntSpace(s[0]) && !IntSpace(s[|s| - 1])) ==> r == s
  {
    TrimEnd(TrimStart(s, IntSpace), IntSpace)
  }

  predicate IsDigit(c: char) {
    '0' <= c <= '9'
  }

  predicate AllDigits(s: string) {
    forall i :: 0 <= i < |s| ==> IsDigit(s[i])
  }

  /** The value of a string of decimal digits, most significant first. */
  function DigitsValue(ds: string): nat
    requires AllDigits(ds)
  {
    if ds == [] then 0
    else 10 * DigitsValue(ds[..|ds| - 1]) + (ds[|ds| - 1] as int - '0' as int)
  }

  /** `int(s)`: optional surrounding `IntSpace` whitespace, an optional sign,
      then one or more decimal digits; on anything else Python raises
      `ValueError`, here `None`. */
  function ParseInt(s: string): Option<int> {
    var t := IntStrip(s);
    var signed := t != [] && (t[0] == '-' || t[0] == '+');
    var digits := if signed then t[1..] else t;
    if digits == [] || !AllDigits(digits) then None
    else
      var magnitude: int := DigitsValue(digits);
      Some(if signed && t[0] == '-' then -magnitude else magnitude)
  }

  /** `int()` accepts a text only if it holds a digit. */
  lemma ParseIntNeedsDigit(s: string)
    ensures ParseInt(s).Some? ==> exists i :: 0 <= i < |s| && IsDigit(s[i])
  {
    if ParseInt(s).Some? {
      var u := TrimStart(s, IntSpace);
      var t := TrimEnd(u, IntSpace);
      var digits := if t[0] == '-' || t[0] == '+' then t[1..] else t;
      var c := digits[0];
      assert IsDigit(c) && c in t;
      TrimEndKeeps(u, IntSpace, c);
      TrimStartKeeps(s, IntSpace, c);
    }
  }

  function DigitChar(d: nat): char
    requires d < 10
  {
    ('0' as int + d) as char
  }

  /** `str(n)` for a natural number: its decimal digits, which read back as `n`. */
  function NatToString(n: nat): (s: string)
    ensures s != [] && AllDigits(s)
    ensures DigitsValue(s) == n
    decreases n
  {
    if n < 10 then [DigitChar(n)]
    else
      var p := NatToString(n / 10);
      assert (p + [DigitChar(n % 10)])[..|p|] == p;
      p + [DigitChar(n % 10)]
  }

  /** `str(n)` for an integer: the digits of its magnitude, after a minus
      sign exactly when it is negative. */
  function IntToString(n: int): (r: string)
    ensures r != [] && (r[0] == '-' <==> n < 0)
    ensures n >= 0 ==> AllDigits(r) && DigitsValue(r) == n
    ensures n < 0 ==> AllDigits(r[1..]) && DigitsValue(r[1..]) == -n
  {
    if n < 0 then "-" + NatToString(-n) else NatToString(n)
  }

  lemma {:induction false} TrimStartSpaces(pad: string, s: string)
    requires forall i :: 0 <= i < |pad| ==> IntSpace(pad[i])
    requires s == [] || !IntSpace(s[0])
    ensures TrimStart(pad + s, IntSpace) == s
  {
    if pad != [] {
      assert (pad + s)[1..] == pad[1..] + s;
      TrimStartSpaces(pad[1..], s);
    }
  }

  /** `str(n)` ends with a digit and has no surrounding whitespace. */
  lemma IntStringUnpadded(n: int)
    ensures IsDigit(IntToString(n)[|IntToString(n)| - 1])
    ensures IntStrip(IntToString(n)) == IntToString(n)
  {
    var s := IntToString(n);
    if n < 0 {
      assert s[|s| - 1] == s[1..][|s| - 2];
    }
  }

  lemma ParseIntOfDigits(n: int)
    ensures ParseInt(IntToString(n)) == Some(n)
  {
    IntStringUnpadded(n);
  }

  /** `int(...)` reads back what `str(...)` wrote, also after leading
      whitespace that `int()` skips. */
  lemma ParseIntOfString(pad: string, n: int)
    requires forall i :: 0 <= i < |pad| ==> IntSpace(pad[i])
    ensures ParseInt(pad + IntToString(n)) == Some(n)
  {
    var s := IntToString(n);
    IntStringUnpadded(n);
    TrimStartSpaces(pad, s);
    assert IntStrip(pad + s) == s;
    ParseIntOfDigits(n);
  }

  /** `int()` refuses an unsigned text, after skipped whitespace, that holds
      something other than digits and does not end in whitespace. */
  lemma ParseIntRejects(pad: string, body: string)
    requires forall i :: 0 <= i < |pad| ==> IntSpace(pad[i])
    requires body != [] && IsDigit(body[0]) && !IntSpace(body[|body| - 1])
    requires !AllDigits(body)
    ensures ParseInt(pad + body) == None
  {
    TrimStartSpaces(pad, body);
    assert IntStrip(pad + body) == body;
  }

  /** The separators 28-31 count as whitespace for `strip()` but not for
      `int()`: a number next to one of them is refused. A no-break space
      (U+00A0) is whitespace to both. */
  lemma SeparatorsAreNotIntSpace()
    ensures Strip([28 as char] + "5") == "5"
    ensures ParseInt("5" + [28 as char]) == None
    ensures ParseInt([31 as char] + "5") == None
    ensures Strip([0xA0 as char] + "5") == "5"
    ensures ParseInt([0xA0 as char] + "5") == Some(5)
  {
    assert TrimStart([28 as char] + "5", IsSpace) == TrimStart("5", IsSpace);
    assert TrimStart([0xA0 as char] + "5", IsSpace) == TrimStart("5", IsSpace);
    ParseIntOfString([0xA0 as char], 5);
    assert IntToString(5) == "5";
  }

  // ---------------------------------------------------------------------
  // int(x) on a quotient
  // ---------------------------------------------------------------------

  /** `int(a / b)`: the quotient truncated toward zero (not floored). */
  function TruncDiv(a: int, b: int): (q: int)
    requires b > 0
    ensures 0 <= a ==> 0 <= q && q * b <= a < q * b + b
    ensures a < 0 ==> q <= 0 && q * b - b < a <= q * b
  {
    if a >= 0 then a / b else -((-a) / b)
  }
}

=== FILE: tick.dfy ===
/**
 * The once-a-second task `fun`: the timer sweep, then the token refresh, then
 * the playlist rotation, in that order, as one sequential step.
 */
module Tick {
  import opened Chat
  import opened Timers
  import opened Playlist

  /** One run of `fun` at time `now`. `newToken` is what a refresh would
      obtain, `items` what listing the playlists would return and `created`
      the id a new playlist would get. A rotation in the same tick as a
      refresh already uses the new token. */
  method Fun(reg: TimerRegistry, keeper: PlaylistKeeper, now: int,
             newToken: string, items: seq<Item>, created: string)
    returns (notices: seq<Post>, calls: seq<SpotifyCall>)
    requires reg.Valid()
    modifies reg, keeper
    ensures reg.Valid()
    ensures reg.timers == Swept(old(reg.timers), now)
    ensures notices == ExpiryNotices(old(reg.timers), now)
    ensures keeper.token == if RefreshDue(old(keeper.refreshTimer), now) then newToken else old(keeper.token)
    ensures keeper.refreshTimer == if RefreshDue(old(keeper.refreshTimer), now) then now else old(keeper.refreshTimer)
    ensures !RefreshDue(keeper.refreshTimer, now) && !RotationDue(keeper.onTime, now)
    ensures RotationDue(old(keeper.onTime), now) ==>
      keeper.playList == LastReserved(items).GetOr(created) && keeper.onTime == now
    ensures !RotationDue(old(keeper.onTime), now) ==>
      keeper.playList == old(keeper.playList) && keeper.onTime == old(keeper.onTime)
    ensures calls ==
      (if RefreshDue(old(keeper.refreshTimer), now) then [RefreshAuthorization] else [])
      + (if !RotationDue(old(keeper.onTime), now) then []
         else [RemovePlaylist(keeper.token, old(keeper.playList)), GetUserPlaylists(keeper.token)]
              + (if LastReserved(items).None? then [CreatePlaylist(keeper.token)] else []))
  {
    notices := reg.Sweep(now);
    var refreshed := keeper.RefreshIfDue(now, newToken);
    var rotated := keeper.RotateIfDue(items, created, now);
    calls := refreshed + rotated;
  }
}

=== FILE: timers.dfy ===
/**
 * The timer registry behind `/giveme`, `/timer`, `/alltimers` and the first
 * part of the once-a-second task: `timersKey` maps a member to
 * `[min, start, chn]`. A member keys a dict by its id alone, so the registry
 * is keyed by member id; each entry also keeps the member object that keys
 * it, whose name and mention the replies use.
 *
 * Time is a whole number of seconds. A recorded start is kept in seconds; the
 * source stores it in minutes (seconds / 60), so every comparison below is the
 * source's comparison multiplied through by 60.
 */
module Timers {
  import opened Wrappers
  import opened PyText
  import opened PyDict
  import opened Chat

  const DefaultGame := "the decided heckin game"

  /** One entry of `timersKey`: minutes granted, start time, reply context,
      and `who`, the member object that is the entry's key. */
  datatype TimerEntry = TimerEntry(minutes: int, start: int, ctx: Sink, who: Member)

  /** `timersKey`, keyed by member id. */
  type Timers = Dict<nat, TimerEntry>

  /** The sweep's test `now/60 - start/60 >= min`. */
  predicate Expired(e: TimerEntry, now: int) {
    now - e.start >= 60 * e.minutes
  }

  /** `int(min - (now/60 - start/60))`: the minutes left, truncated toward
      zero; never negative before expiry and never positive after it. */
  function TimeLeft(e: TimerEntry, now: int): (r: int)
    ensures !Expired(e, now) ==> r >= 0
    ensures Expired(e, now) ==> r <= 0
  {
    TruncDiv(60 * e.minutes - (now - e.start), 60)
  }

  /** The minutes left are the seconds left divided by 60 and truncated
      toward zero: rounded down before expiry and up after it. */
  lemma TimeLeftTruncates(e: TimerEntry, now: int)
    ensures var secondsLeft := 60 * e.minutes - (now - e.start);
      var r := TimeLeft(e, now);
      if secondsLeft >= 0 then 60 * r <= secondsLeft < 60 * r + 60
      else 60 * r - 60 < secondsLeft <= 60 * r
  {
  }

  function MinutesMessage(name: string, minutes: int): string {
    name + " has " + IntToString(minutes) + " minutes to start playing " + DefaultGame
  }

  /** Every entry is keyed by the id of the member object it holds. */
  ghost predicate KeyedById(d: Timers) {
    forall k :: k in d.vals ==> d.vals[k].who.id == k
  }

  /** The `/alltimers` line for the member with id `k`: what `/timer` tells
      that member, as long as they keep the name they had. */
  function TimerLine(d: Timers, k: nat, now: int): (r: string)
    requires k in d.vals
    ensures d.vals[k].who.id == k ==> r == TimerReply(d, d.vals[k].who, now)
  {
    MinutesMessage(d.vals[k].who.name, TimeLeft(d.vals[k], now))
  }

  function ReadyMessage(who: Member): string {
    who.Mention() + " needs to start playing " + DefaultGame + " right fucking now"
  }

  /** The minutes `/giveme` reads from its message: the text is lower-cased,
      `int()` is applied once with "/giveme " removed and once with "/giveme"
      removed, and the second value is kept; if either `int()` raises, the
      handler stops (`None`). */
  function GiveMeMinutes(content: string): Option<int> {
    var me := Lower(content);
    if ParseInt(Replace(me, "/giveme ", "")).None? then None
    else ParseInt(Replace(me, "/giveme", ""))
  }

  /** `/giveme` reads the same minutes whatever the case of the message. */
  lemma GiveMeIgnoresCase(content: string)
    ensures GiveMeMinutes(Lower(content)) == GiveMeMinutes(content)
  {
    LowerTwice(content);
  }

  lemma StripCommandWithSpace(digits: string)
    requires '/' !in digits
    ensures Replace("/giveme " + digits, "/giveme ", "") == digits
  {
    ReplaceLeading("/giveme ", digits, "");
    ReplaceAbsent(digits, "/giveme ", "");
  }

  lemma StripCommand(digits: string)
    requires '/' !in digits
    ensures Replace("/giveme " + digits, "/giveme", "") == " " + digits
  {
    assert "/giveme " + digits == "/giveme" + (" " + digits);
    ReplaceLeading("/giveme", " " + digits, "");
    ReplaceAbsent(" " + digits, "/giveme", "");
  }

  lemma LowerCommand(digits: string)
    requires forall i :: 0 <= i < |digits| ==> digits[i] == '-' || IsDigit(digits[i])
    ensures Lower("/giveme " + digits) == "/giveme " + digits
  {
    LowerUnchanged("/giveme " + digits);
  }

  /** "/giveme m" grants exactly m minutes. */
  lemma GiveMeReadsMinutes(m: int)
    ensures GiveMeMinutes("/giveme " + IntToString(m)) == Some(m)
  {
    var digits := IntToString(m);
    var me := "/giveme " + digits;
    assert forall i :: 0 <= i < |digits| ==> digits[i] == '-' || IsDigit(digits[i]);
    LowerCommand(digits);
    assert Lower(me) == me;
    StripCommandWithSpace(digits);
    StripCommand(digits);
    ReadsBothWays(m);
  }

  /** A number followed by an information separator (code 28) is refused
      by `int()`, so `/giveme` sets no timer. */
  lemma GiveMeSeparatorRefused()
    ensures GiveMeMinutes("/giveme 5" + [28 as char]) == None
  {
    var rest := "5" + [28 as char];
    LowerUnchanged("/giveme " + rest);
    ReplaceLeading("/giveme ", rest, "");
    ReplaceAbsent(rest, "/giveme ", "");
    assert "/giveme 5" + [28 as char] == "/giveme " + rest;
    assert "" + rest == rest;
    ParseIntRejects("", rest);
  }

  lemma ReadsBothWays(m: int)
    ensures ParseInt(IntToString(m)) == Some(m)
    ensures ParseInt(" " + IntToString(m)) == Some(m)
  {
    var digits := IntToString(m);
    ParseIntOfString("", m);
    assert "" + digits == digits;
    ParseIntOfString(" ", m);
  }

  /** What `/timer` replies to `author`: found by id, named as the author
      is named now. */
  function TimerReply(timers: Timers, author: Member, now: int): (r: string)
    ensures author.id !in timers.vals ==> r == "You do not have a timer"
    ensures author.id in timers.vals ==>
      r == MinutesMessage(author.name, TimeLeft(timers.vals[author.id], now))
  {
    if author.id in timers.vals then MinutesMessage(author.name, TimeLeft(timers.vals[author.id], now))
    else "You do not have a timer"
  }

  /** The member object that keys `author`'s entry after `update`: a dict
      keeps the key it already holds for an equal key. */
  function KeyObject(d: Timers, author: Member): Member {
    if author.id in d.vals then d.vals[author.id].who else author
  }

  /** The registry after `/giveme m` from `author` at `now`. */
  function GiveMeUpdate(d: Timers, author: Member, m: int, now: int, ctx: Sink): (r: Timers)
    requires d.Valid()
    ensures r.Valid() && (KeyedById(d) ==> KeyedById(r))
    ensures author.id in r.vals && r.vals[author.id] == TimerEntry(m, now, ctx, KeyObject(d, author))
    ensures forall k :: k != author.id ==> (k in r.vals <==> k in d.vals)
    ensures forall k :: k != author.id && k in d.vals ==> r.vals[k] == d.vals[k]
    ensures author.id in d.vals ==> r.keys == d.keys && r.vals[author.id].who == d.vals[author.id].who
    ensures author.id !in d.vals ==> r.keys == d.keys + [author.id] && r.vals[author.id].who == author
  {
    Put(d, author.id, TimerEntry(m, now, ctx, KeyObject(d, author)))
  }

  /** A `/timer` within the first minute after `/giveme m` (and strictly
      after it, as every later command is) reports m - 1 for a positive m,
      because part of the first minute has gone, and m otherwise. Every
      other member's reply is what it was, at any time. */
  lemma TimerAfterGiveMe(d: Timers, author: Member, other: Member, m: int,
                         now: int, later: int, ctx: Sink)
    requires d.Valid() && other.id != author.id
    requires 0 < later - now < 60
    ensures TimerReply(GiveMeUpdate(d, author, m, now, ctx), author, later)
         == MinutesMessage(author.name, if m >= 1 then m - 1 else m)
    ensures TimerReply(GiveMeUpdate(d, author, m, now, ctx), other, later)
         == TimerReply(d, other, later)
  {
    var e := TimerEntry(m, now, ctx, KeyObject(d, author));
    if m >= 1 {
      assert 60 * (m - 1) < 60 * m - (later - now) < 60 * m;
    } else {
      assert 60 * m - 60 < 60 * m - (later - now) < 60 * m;
    }
    assert TimeLeft(e, later) == if m >= 1 then m - 1 else m;
  }

  /** A member who renames keeps their timer: `/timer` under the new name
      finds it at any later time, and a second `/giveme` overwrites the same
      entry instead of adding one. */
  lemma RenameKeepsTimer(d: Timers, before: Member, after: Member, m1: int, m2: int,
                         t1: int, t2: int, now: int, c1: Sink, c2: Sink)
    requires d.Valid() && before.id == after.id
    ensures var d1 := GiveMeUpdate(d, before, m1, t1, c1);
      TimerReply(d1, after, now) == MinutesMessage(after.name, TimeLeft(d1.vals[before.id], now))
      && d1.vals[before.id].minutes == m1 && d1.vals[before.id].start == t1
    ensures var d1 := GiveMeUpdate(d, before, m1, t1, c1);
      var d2 := GiveMeUpdate(d1, after, m2, t2, c2);
      d2.keys == d1.keys && d2.vals[after.id] == TimerEntry(m2, t2, c2, d1.vals[before.id].who)
  {
  }

  /** The keys the sweep finds expired, in the dict's iteration order. */
  function ExpiredKeys(keys: seq<nat>, vals: map<nat, TimerEntry>, now: int): (r: seq<nat>)
    requires forall k :: k in keys ==> k in vals
    ensures forall k :: k in r <==> k in keys && Expired(vals[k], now)
    ensures Distinct(keys) ==> Distinct(r)
  {
    if keys == [] then []
    else
      var last := keys[|keys| - 1];
      var front := keys[..|keys| - 1];
      assert keys == front + [last];
      assert Distinct(keys) ==> last !in front;
      ExpiredKeys(front, vals, now) + (if Expired(vals[last], now) then [last] else [])
  }

  /** The set of members whose timer has run out at `now`. */
  function Due(d: Timers, now: int): set<nat> {
    set k | k in d.vals && Expired(d.vals[k], now)
  }

  /** The registry after a sweep at `now`: exactly the expired entries are
      gone, every other entry is untouched and keeps its place, and nothing
      left is expired. */
  function Swept(d: Timers, now: int): (r: Timers)
    requires d.Valid()
    ensures r.Valid() && (KeyedById(d) ==> KeyedById(r))
    ensures forall k :: k in r.vals <==> k in d.vals && !Expired(d.vals[k], now)
    ensures forall k :: k in r.vals ==> r.vals[k] == d.vals[k]
    ensures forall k :: k in r.vals ==> !Expired(r.vals[k], now)
    ensures r == RemoveAll(d, Due(d, now))
  {
    RemoveAll(d, Due(d, now))
  }

  /** The notice for the entry of member id `k`, mentioning its key object. */
  function ExpiryNotice(k: nat, e: TimerEntry): Post {
    Post(e.ctx, ReadyMessage(e.who))
  }

  function NoticesFor(vals: map<nat, TimerEntry>, ks: seq<nat>): (r: seq<Post>)
    requires forall k :: k in ks ==> k in vals
  {
    seq(|ks|, i requires 0 <= i < |ks| => ExpiryNotice(ks[i], vals[ks[i]]))
  }

  /** What a sweep sends: one notice per expired entry, in iteration order.
      Every notice is for a member whose timer has run out. */
  function ExpiryNotices(d: Timers, now: int): (r: seq<Post>)
    requires d.Valid()
    ensures forall p :: p in r ==> exists k :: k in Due(d, now) && p == ExpiryNotice(k, d.vals[k])
  {
    var ks := ExpiredKeys(d.keys, d.vals, now);
    var r := NoticesFor(d.vals, ks);
    assert forall i :: 0 <= i < |r| ==> ks[i] in Due(d, now) && r[i] == ExpiryNotice(ks[i], d.vals[ks[i]]);
    r
  }

  /** A sweep notifies once per removed entry and never twice for one member:
      the notices are as many as the entries the sweep removes, and the i-th
      goes to the context stored with the i-th expired member. */
  lemma OneNoticePerExpiry(d: Timers, now: int)
    requires d.Valid()
    ensures |ExpiryNotices(d, now)| == |Due(d, now)| == |d.vals| - |Swept(d, now).vals|
    ensures var ks := ExpiredKeys(d.keys, d.vals, now);
      Distinct(ks) && (forall k :: k in ks <==> k in Due(d, now))
      && forall i :: 0 <= i < |ks| ==>
           ExpiryNotices(d, now)[i] == Post(d.vals[ks[i]].ctx, ReadyMessage(d.vals[ks[i]].who))
  {
    var ks := ExpiredKeys(d.keys, d.vals, now);
    DistinctCardinality(ks);
    assert Elems(ks) == Due(d, now);
    var due := Due(d, now);
    assert due <= d.vals.Keys;
    assert Swept(d, now).vals.Keys == d.vals.Keys - due;
    assert |d.vals.Keys - due| == |d.vals.Keys| - |due|;
  }

  /** A timer set with `m` minutes at `start` survives every sweep before
      `start + 60*m` seconds and is removed, with one notice, by the first
      sweep at or after it. */
  lemma ExpiresExactlyOnTime(d: Timers, k: nat, now: int)
    requires d.Valid() && k in d.vals
    ensures now < d.vals[k].start + 60 * d.vals[k].minutes ==>
      k in Swept(d, now).vals && k !in ExpiredKeys(d.keys, d.vals, now)
    ensures now >= d.vals[k].start + 60 * d.vals[k].minutes ==>
      k !in Swept(d, now).vals && multiset(ExpiredKeys(d.keys, d.vals, now))[k] == 1
  {
    var ks := ExpiredKeys(d.keys, d.vals, now);
    if now >= d.vals[k].start + 60 * d.vals[k].minutes {
      assert k in ks;
      CountedOnce(ks, k);
    }
  }

  /** A key listed in a list without repeats occurs in it once. */
  lemma CountedOnce(ks: seq<nat>, k: nat)
    requires Distinct(ks) && k in ks
    ensures multiset(ks)[k] == 1
  {
    var i :| 0 <= i < |ks| && ks[i] == k;
    assert ks == ks[..i] + [k] + ks[i + 1..];
    assert k !in ks[..i] && k !in ks[i + 1..];
  }

  /** One step of the sweep's second pass: popping the next collected key
      from what is left is popping one more key from the original, and adds
      the notice for that key's original entry. */
  lemma PopNext(d0: Timers, expired: seq<nat>, j: nat)
    requires d0.Valid() && Distinct(expired) && j < |expired|
    requires forall k :: k in expired ==> k in d0.vals
    ensures expired[j] in RemoveAll(d0, Elems(expired[..j])).vals
    ensures RemoveAll(d0, Elems(expired[..j])).vals[expired[j]] == d0.vals[expired[j]]
    ensures Pop(RemoveAll(d0, Elems(expired[..j])), expired[j]) == RemoveAll(d0, Elems(expired[..j + 1]))
    ensures NoticesFor(d0.vals, expired[..j + 1])
         == NoticesFor(d0.vals, expired[..j]) + [ExpiryNotice(expired[j], d0.vals[expired[j]])]
  {
    var k := expired[j];
    assert k !in expired[..j];
    assert expired[..j + 1] == expired[..j] + [k];
    assert Elems(expired[..j + 1]) == Elems(expired[..j]) + {k};
    PopAfterRemoveAll(d0, Elems(expired[..j]), k);
  }

  /** `timersKey`, owned by the bot process. */
  class TimerRegistry {
    var timers: Timers

    ghost predicate Valid()
      reads this
    {
      timers.Valid() && KeyedById(timers)
    }

    constructor ()
      ensures Valid() && timers == Empty()
    {
      timers := Empty();
    }

    /** `/giveme m`: reply with the minutes granted, then set (or overwrite)
        the author's timer; a message `int()` cannot read changes nothing. */
    method GiveMe(author: Member, content: string, now: int, ctx: Sink) returns (replies: seq<string>)
      requires Valid()
      modifies this
      ensures Valid()
      ensures GiveMeMinutes(content).None? ==> replies == [] && timers == old(timers)
      ensures GiveMeMinutes(content).Some? ==>
        var m := GiveMeMinutes(content).value;
        && replies == [MinutesMessage(author.name, m)]
        && timers == GiveMeUpdate(old(timers), author, m, now, ctx)
    {
      var minutes := GiveMeMinutes(content);
      if minutes.None? {
        return [];
      }
      replies := [MinutesMessage(author.name, minutes.value)];
      var who := if author.id in timers.vals then timers.vals[author.id].who else author;
      timers := Put(timers, author.id, TimerEntry(minutes.value, now, ctx, who));
    }

    /** `/timer`. */
    method Timer(author: Member, now: int) returns (reply: string)
      ensures reply == TimerReply(timers, author, now)
    {
      if author.id in timers.vals {
        var e := timers.vals[author.id];
        var left := TruncDiv(60 * e.minutes - (now - e.start), 60);
        assert left == TimeLeft(e, now);
        reply := MinutesMessage(author.name, left);
      } else {
        reply := "You do not have a timer";
      }
    }

    /** `/alltimers`: one line per timer in insertion order, or "There are no
        timers" when there is none. */
    method AllTimers(now: int) returns (replies: seq<string>)
      requires Valid()
      ensures timers.vals == map[] ==> replies == ["There are no timers"]
      ensures timers.vals != map[] ==>
        && |replies| == |timers.keys|
        && forall i :: 0 <= i < |replies| ==>
             replies[i] == TimerLine(timers, timers.keys[i], now)
    {
      var d := timers;
      replies := [];
      var i := 0;
      while i < |d.keys|
        invariant 0 <= i <= |d.keys|
        invariant |replies| == i
        invariant forall j :: 0 <= j < i ==> replies[j] == TimerLine(d, d.keys[j], now)
      {
        replies := replies + [TimerLine(d, d.keys[i], now)];
        i := i + 1;
      }
      EmptyHasNoKeys(d);
      if d.vals == map[] {
        replies := replies + ["There are no timers"];
      }
    }

    /** First pass of the sweep: the expired keys, in iteration order. */
    method CollectExpired(now: int) returns (expired: seq<nat>)
      requires Valid()
      ensures expired == ExpiredKeys(timers.keys, timers.vals, now)
      ensures Distinct(expired) && Elems(expired) == Due(timers, now)
    {
      var d := timers;
      expired := [];
      var i := 0;
      while i < |d.keys|
        invariant 0 <= i <= |d.keys|
        invariant expired == ExpiredKeys(d.keys[..i], d.vals, now)
      {
        var k := d.keys[i];
        assert d.keys[..i + 1] == d.keys[..i] + [k];
        if Expired(d.vals[k], now) {
          expired := expired + [k];
        }
        i := i + 1;
      }
      assert d.keys[..i] == d.keys;
    }

    /** The expiry sweep of the once-a-second task. The first pass collects
        the expired keys; the second pops each one and notifies its stored
        context. */
    method Sweep(now: int) returns (notices: seq<Post>)
      requires Valid()
      modifies this
      ensures Valid()
      ensures timers == Swept(old(timers), now)
      ensures notices == ExpiryNotices(old(timers), now)
    {
      ghost var d0 := timers;
      var expired := CollectExpired(now);

      notices := [];
      var j := 0;
      RemoveNothing(d0);
      assert Elems(expired[..0]) == {};
      while j < |expired|
        invariant 0 <= j <= |expired|
        invariant timers == RemoveAll(d0, Elems(expired[..j]))
        invariant notices == NoticesFor(d0.vals, expired[..j])
      {
        var k := expired[j];
        PopNext(d0, expired, j);
        var entry := timers.vals[k];
        timers := Pop(timers, k);
        notices := notices + [ExpiryNotice(k, entry)];
        j := j + 1;
      }
      assert expired[..j] == expired;
    }
  }
}
